=== FILE: README.md ===
# rtmpdroid, modelled in Dafny

rtmpdroid is an Android library that wraps the native RTMP library
(librtmp) behind Kotlin classes and a JNI glue layer. This project models
the logic rtmpdroid adds around librtmp, and proves what that logic
promises:

- **The AMF0 encoder** (`AmfEncoder`, `EcmaArray`). It collects a list of
  parameters, pre-computes their size (`minBufferSize`), and writes them one
  by one into the window `[position, limit)` of a direct `ByteBuffer`. Each
  write goes through a JNI encoder that answers the new absolute position,
  or -1 when the value does not fit.
  - Modules `Amf0` and `AmfModel` hold the byte layouts and a functional
    model of every encoding step. The layouts follow sections 2.2, 2.3, 2.4,
    2.5, 2.7, 2.10, 2.11 and 2.14 of the AMF0 File Format Specification.
  - Module `AmfEncoding` holds the classes, whose methods are proved to
    follow that model step by step.
- **Codec capabilities** (`VideoCodecs`, `ExVideoCodecs`). Module `Codecs`
  covers the MIME-type list to `videoCodecs` bitmask conversion and the
  MIME-type list to comma-separated FourCC list conversion, both ways, with
  their round trips.
- **Packet marshalling** (`RtmpPacket::getNative`, `RtmpPacket::getJava`).
  Module `Packets` covers the conversion between the managed packet and
  librtmp's `RTMPPacket` record, including the allocation and the JNI
  lookups that can fail.
- **The JNI session glue** (`glue.cpp`). Module `Glue` covers:
  - how each native turns librtmp's answer into a status;
  - the bounds check of `nativeRead`;
  - the record handling of `nativeWritePacket`;
  - for the three natives whose code has a defect, both the code as written
    and a corrected version (see Findings). The session calls the natives
    as written.
  - the log-level mapping;
  - the fields of librtmp's `RTMP` context that the natives set.
- **The session** (`Rtmp`). Module `Session` covers:
  - the context pointer's life from allocation to an idempotent `close`;
  - the `connect` sequence;
  - how read and write counts become exceptions;
  - the `timeout` property;
  - the `supportedVideoCodecs` getter and setter, with the setter's
    partition of the list into standard and extended codecs.

Modelling choices:

- librtmp is foreign code, so its answers are method parameters and are
  left unconstrained. This covers every `RTMP_*` result, `malloc`, JNI
  class, field and constructor lookups, and the statuses the Kotlin side
  reads from natives that glue.cpp does not define.
- Every librtmp call a native makes is recorded in a ghost trace
  (`RtmpContext.calls`). The contracts say which calls happen and in what
  order.
- Strings are ASCII without NUL. For those, a JVM string's length equals
  the length of its modified UTF-8 bytes.
- An AMF0 Number is an opaque 64-bit pattern.

Modules `AmfScenarios`, `SessionScenarios` and the scenario methods in
`Codecs` and `Glue` state the model's answers on concrete values, many taken
from the library's tests, as assertions the verifier proves.
For example, `minBufferSize` after adding an Int and "Test" is 4 + 3 + 4,
and a Boolean is written as `[0x01, 1]`.

## Model

Paths are relative to the repository root.

| member | source | states |
|---|---|---|
| Bytes.BigEndian | lib/src/main/cpp/glue.cpp:228-248 | The big-endian form of a value has exactly the requested number of bytes. |
| Bytes.BigEndianRoundTrip | lib/src/main/cpp/glue.cpp:228-248 | Reading back the big-endian bytes of a value that fits its width gives the value. |
| Bytes.FromBigEndianRoundTrip | lib/src/main/cpp/glue.cpp:228-248 | Every byte string is the big-endian form of its own value, so reading loses nothing. |
| Bytes.BigEndianPeriodic | lib/src/main/cpp/glue.cpp:278-294 | Values 256^width apart have the same low bytes. This is how a name length is truncated to 16 bits. |
| Bytes.SignedOf32 | lib/src/main/cpp/models/RtmpPacket.h:92 | The `(int32_t)` view of a `uint32_t` is the value or the value minus 2^32. It is negative exactly when the top bit is set. |
| Bytes.Int32RoundTrip | lib/src/androidTest/java/video/api/rtmpdroid/amf/AmfEncoderTest.kt:43-48 | An Int written as four big-endian bytes reads back, through the signed view, as itself (`buffer.getInt(0) == i`). |
| Bytes.AsciiBytes | lib/src/main/cpp/glue.cpp:262-276 | The bytes of an ASCII string: one per character, each the character's code. |
| Bytes.AsciiOf | lib/src/main/cpp/glue.cpp:262-276 | The string that a run of ASCII bytes spells, one character per byte. |
| Bytes.AsciiRoundTrip | lib/src/main/cpp/glue.cpp:262-276 | An ASCII string and its bytes convert into each other without loss. |
| Amf0.ScalarSize | lib/src/main/java/video/api/rtmpdroid/amf/AmfEncoder.kt:138-152 | The wire width of a scalar is the length of its AMF0 encoding. Boolean is 2, Number 9, a string 3 + length up to 65535 characters, and 5 + length beyond. |
| Amf0.ScalarBytes | lib/src/main/cpp/glue.cpp:216-276 | What `AMF_EncodeBoolean`, `AMF_EncodeNumber` and `AMF_EncodeString` write: the marker, then the value. `ScalarRoundTrip` proves that the reader reads it back. |
| Amf0.Int32Bytes | lib/src/main/cpp/glue.cpp:239-248 | What `AMF_EncodeInt32` writes: four raw big-endian bytes, no marker. `Int32RoundTrip` proves them. |
| Amf0.Int24Bytes | lib/src/main/cpp/glue.cpp:228-237 | What `AMF_EncodeInt24` writes: three raw big-endian bytes, no marker. |
| Amf0.ObjectEnd | lib/src/main/java/video/api/rtmpdroid/amf/AmfEncoder.kt:109 | The footer written as Int24 9 is exactly `[0, 0, 9]`: an empty name and the object-end marker. |
| Amf0.NameBytes | lib/src/main/cpp/glue.cpp:278-335 | A property name: its length as 16 bits, then its bytes. `NameRoundTrip` proves them. |
| Amf0.PropertyBytes | lib/src/main/cpp/glue.cpp:278-335 | What the `AMF_EncodeNamed*` primitives write: the name, then the marked value. `PropertyRoundTrip` proves it. |
| Amf0.DecodeScalar | lib/src/main/java/video/api/rtmpdroid/amf/AmfEncoder.kt:248-255 | An independent AMF0 reader for marked scalars. It never claims more bytes than it was given. |
| Amf0.DecodeProperty | lib/src/main/java/video/api/rtmpdroid/amf/AmfEncoder.kt:78-105 | An independent reader for a named property. It never claims more bytes than it was given. |
| Amf0.ScalarRoundTrip | lib/src/main/cpp/glue.cpp:216-276 | Reading what the Boolean, Number or String encoder wrote gives back the value and its exact width, whatever follows. |
| Amf0.PropertyRoundTrip | lib/src/main/cpp/glue.cpp:278-335 | Reading what a named encoder wrote gives back the name, the value and the exact width, whatever follows. |
| Amf0.NameRoundTrip | lib/src/main/cpp/glue.cpp:278-335 | For a name of at most 65535 characters, both the 16-bit length prefix and the name's bytes read back unchanged. |
| AmfModel.ParameterSize | lib/src/main/java/video/api/rtmpdroid/amf/AmfEncoder.kt:136-177 | `getParameterSize` as written. A size is at least 1, and the only error is the unsupported-type IOException. |
| AmfModel.SizeSum | lib/src/main/java/video/api/rtmpdroid/amf/AmfEncoder.kt:128-129 | The sum of the sizes in a list is at least one byte per parameter. It fails only with the unsupported-type error. |
| AmfModel.EncodedSize | lib/src/main/java/video/api/rtmpdroid/amf/AmfEncoder.kt:136-177 | The corrected size, which counts long strings as 5 + length. It is at least 1. |
| AmfModel.EncodedSizeSum | lib/src/main/java/video/api/rtmpdroid/amf/AmfEncoder.kt:128-129 | The corrected size of a list, at least one byte per parameter. |
| AmfModel.NamedScalar | lib/src/main/java/video/api/rtmpdroid/amf/AmfEncoder.kt:78-104 | The value kinds a named parameter accepts (Boolean, Double, String). Any other kind makes `Put` raise the named-type IOException. |
| AmfModel.Write | lib/src/main/java/video/api/rtmpdroid/amf/AmfEncoder.kt:122 | Writing at the cursor puts exactly the encoding in `[position, position + length)`, moves the cursor past it, and changes nothing else. |
| AmfModel.Native | lib/src/main/java/video/api/rtmpdroid/amf/AmfEncoder.kt:119-122 | A native encoder step never touches bytes outside the window and never moves the cursor back. |
| AmfModel.PutByte | lib/src/main/java/video/api/rtmpdroid/amf/AmfEncoder.kt:75 | `buffer.put` stays inside the window. |
| AmfModel.Put | lib/src/main/java/video/api/rtmpdroid/amf/AmfEncoder.kt:60-123 | Encoding one parameter stays inside the window and only moves the cursor forward. |
| AmfModel.PutAll | lib/src/main/java/video/api/rtmpdroid/amf/AmfEncoder.kt:55-57 | Encoding a list stays inside the window and only moves the cursor forward. |
| AmfModel.PutFrame | lib/src/main/java/video/api/rtmpdroid/amf/AmfEncoder.kt:108-109 | The children and footer of an object or an array stay inside the window and only move the cursor forward. |
| AmfModel.PutMeaning | lib/src/main/java/video/api/rtmpdroid/amf/AmfEncoder.kt:60-123 | Encoding a parameter succeeds exactly when its type is encodable and its encoding fits before the limit. It then writes exactly that encoding at the cursor. |
| AmfModel.ObjectMeaning | lib/src/main/java/video/api/rtmpdroid/amf/AmfEncoder.kt:106-110 | An object succeeds exactly when `[0x03] ++ children ++ [0,0,9]` encodes and fits, and then writes exactly those bytes. |
| AmfModel.EcmaMeaning | lib/src/main/java/video/api/rtmpdroid/amf/AmfEncoder.kt:111-116 | An ECMA array succeeds exactly when `[0x08] ++ count ++ elements ++ [0,0,9]` encodes and fits, and then writes exactly those bytes. The count is the element count. |
| AmfModel.FrameMeaning | lib/src/main/java/video/api/rtmpdroid/amf/AmfEncoder.kt:108-109 | After a header, the children and the footer succeed exactly when the children encode and the whole fits. They then write the header, the children's encodings and `[0,0,9]`, in that order. |
| AmfModel.PutAllMeaning | lib/src/main/java/video/api/rtmpdroid/amf/AmfEncoder.kt:52-58 | Encoding a list succeeds exactly when every parameter encodes and the concatenation fits. It then writes the parameters' encodings in list order. |
| AmfModel.PutFailsOnlyForRoom | lib/src/main/java/video/api/rtmpdroid/amf/AmfEncoder.kt:117-122 | A parameter of an encodable type fails only because the buffer runs out, never with a type error. |
| AmfModel.PutAllFailsOnlyForRoom | lib/src/main/java/video/api/rtmpdroid/amf/AmfEncoder.kt:55-57 | The same for a list of encodable parameters. |
| AmfModel.EncodingAllAppend | lib/src/main/java/video/api/rtmpdroid/amf/AmfEncoder.kt:55-57 | Adding a parameter appends its encoding, so parameters come out in insertion order. |
| AmfModel.EncodedSizeExact | lib/src/main/java/video/api/rtmpdroid/amf/AmfEncoder.kt:136-177 | The corrected size of an encodable tree is the length of its encoding. |
| AmfModel.EncodedSizeSumExact | lib/src/main/java/video/api/rtmpdroid/amf/AmfEncoder.kt:128-129 | The corrected size of an encodable list is the length of its encoding. |
| AmfModel.SizesAgree | lib/src/main/java/video/api/rtmpdroid/amf/AmfEncoder.kt:150-152 | With no string longer than 65535 characters, `getParameterSize` equals the wire size. |
| AmfModel.SizeSumsAgree | lib/src/main/java/video/api/rtmpdroid/amf/AmfEncoder.kt:128-129 | The same for a list. |
| AmfModel.MinBufferSizeSuffices | lib/src/main/java/video/api/rtmpdroid/amf/AmfEncoder.kt:40-45 | For encodable parameters with short strings, `minBufferSize` is exactly the encoding's length. Encoding into a fresh buffer of that size succeeds and fills it. |
| AmfModel.SizeAtMostEncoded | lib/src/main/java/video/api/rtmpdroid/amf/AmfEncoder.kt:136-177 | `getParameterSize` fails exactly where the wire size fails, and is never larger. |
| AmfModel.SizeSumAtMostEncoded | lib/src/main/java/video/api/rtmpdroid/amf/AmfEncoder.kt:128-129 | The same for a list. |
| AmfModel.EncodedSizeSuffices | lib/src/main/java/video/api/rtmpdroid/amf/AmfEncoder.kt:40-45 | With the corrected size, allocation is right for every encodable list, long strings included. |
| AmfModel.LongStringUndercount | lib/src/main/java/video/api/rtmpdroid/amf/AmfEncoder.kt:150-152 | A string of 65536 characters is sized 65539 where it needs 65541. Encoding it into a buffer of `minBufferSize` fails at its first byte. |
| AmfEncoding.ByteBuffer.Allocate | lib/src/main/java/video/api/rtmpdroid/amf/AmfEncoder.kt:41 | A new buffer is zeroed, its cursor at 0 and its limit at the capacity. |
| AmfEncoding.ByteBuffer.Put | lib/src/main/java/video/api/rtmpdroid/amf/AmfEncoder.kt:75 | `put` behaves as the model's one-byte step: it writes the byte, or overflows at the limit. |
| AmfEncoding.ByteBuffer.Rewind | lib/src/main/java/video/api/rtmpdroid/amf/AmfEncoder.kt:43 | `rewind` moves the cursor to 0 and keeps the contents and the limit. |
| AmfEncoding.NativeEncode | lib/src/main/cpp/glue.cpp:216-335 | A JNI encoder answers -1 exactly when the encoding does not fit before `end`, and then writes nothing outside `[offset, end)`. Otherwise it writes the encoding at `offset` and answers the absolute offset after it, not a length. |
| AmfEncoding.EncodeNative | lib/src/main/java/video/api/rtmpdroid/amf/AmfEncoder.kt:119-122 | A native call plus the `size < 0` check and `position(size)` follow the model's step, including the exception raised. |
| AmfEncoding.EncodeParameter | lib/src/main/java/video/api/rtmpdroid/amf/AmfEncoder.kt:60-123 | The private `encode` leaves the buffer and the exception exactly as the functional model says. |
| AmfEncoding.EncodeObject | lib/src/main/java/video/api/rtmpdroid/amf/AmfEncoder.kt:106-110 | The object branch follows the model, marker, children and footer included. |
| AmfEncoding.EncodeEcma | lib/src/main/java/video/api/rtmpdroid/amf/AmfEncoder.kt:111-116 | The ECMA-array branch follows the model, marker, count, elements and footer included. |
| AmfEncoding.EncodeFrame | lib/src/main/java/video/api/rtmpdroid/amf/AmfEncoder.kt:108-109 | The children and the object-end footer, shared by objects and arrays, follow the model. |
| AmfEncoding.EncodeEach | lib/src/main/java/video/api/rtmpdroid/amf/AmfEncoder.kt:55-57 | The loop over parameters follows the model and stops at the first exception. |
| AmfEncoding.ErrorOf | lib/src/main/java/video/api/rtmpdroid/amf/AmfEncoder.kt:117-122 | A step raises an exception exactly when it fails. |
| AmfEncoding.AmfEncoder.constructor | lib/src/main/java/video/api/rtmpdroid/amf/AmfEncoder.kt:12 | A new encoder has no parameters. |
| AmfEncoding.AmfEncoder.Add | lib/src/main/java/video/api/rtmpdroid/amf/AmfEncoder.kt:20-22 | `add(p)` appends exactly `p` and keeps the earlier parameters. |
| AmfEncoding.AmfEncoder.AddNamed | lib/src/main/java/video/api/rtmpdroid/amf/AmfEncoder.kt:31-33 | `add(name, value)` appends exactly `NamedParameter(name, value)`. |
| AmfEncoding.AmfEncoder.MinBufferSize | lib/src/main/java/video/api/rtmpdroid/amf/AmfEncoder.kt:128-129 | `minBufferSize` is at least one byte per parameter. For encodable parameters with short strings, it is the encoding's exact length. |
| AmfEncoding.AmfEncoder.EncodeInto | lib/src/main/java/video/api/rtmpdroid/amf/AmfEncoder.kt:52-58 | `encode(buffer)` refuses a heap buffer before writing anything. A direct buffer ends as the model's list encoding says. |
| AmfEncoding.AmfEncoder.Encode | lib/src/main/java/video/api/rtmpdroid/amf/AmfEncoder.kt:40-45 | `encode()` answers a fresh direct buffer holding exactly the parameters' encoding, rewound, with limit equal to its length. It succeeds for every encodable list with short strings, and fails only for want of room otherwise. |
| AmfEncoding.AmfEncoder.EncodeExact | lib/src/main/java/video/api/rtmpdroid/amf/AmfEncoder.kt:40-45 | The corrected `encode()` succeeds exactly for encodable lists, long strings included, with the same result. |
| AmfEncoding.EcmaArray.constructor | lib/src/main/java/video/api/rtmpdroid/amf/models/EcmaArray.kt:10 | A new ECMA array is empty. |
| AmfEncoding.EcmaArray.Add | lib/src/main/java/video/api/rtmpdroid/amf/models/EcmaArray.kt:17-19 | `add(p)` appends exactly `p` and keeps the earlier elements. |
| AmfEncoding.EcmaArray.AddNamed | lib/src/main/java/video/api/rtmpdroid/amf/models/EcmaArray.kt:28-30 | `add(name, value)` appends exactly `NamedParameter(name, value)`. |
| AmfEncoding.EcmaArray.AsParameter | lib/src/main/java/video/api/rtmpdroid/amf/AmfEncoder.kt:111-116 | The encoder holds the array's element list as it stands when `AsParameter` is called, a value snapshot taken at `add`. |
| Codecs.Lookup | lib/src/main/java/video/api/rtmpdroid/internal/VideoCodecs.kt:72 | A map lookup finds a value exactly when the key is in the table, and the value is one the table pairs with the key. |
| Codecs.IsSupportedCodec | lib/src/main/java/video/api/rtmpdroid/internal/VideoCodecs.kt:59-61 | `VideoCodecs.isSupportedCodec`: the type is a key of the H.263/AVC table. |
| Codecs.FlaggedIn | lib/src/main/java/video/api/rtmpdroid/internal/VideoCodecs.kt:18-26 | The table's MIME types whose flag is set in the mask, in table order. `ComputeSupportedCodecs` proves that the loop builds it. |
| Codecs.VideoCodecs.SupportedCodecs | lib/src/main/java/video/api/rtmpdroid/internal/VideoCodecs.kt:18-26 | `supportedCodecs`: the table's types flagged in `value`. `SupportedCodecsMeaning` gives its members. |
| Codecs.VideoCodecs.HasCodec | lib/src/main/java/video/api/rtmpdroid/internal/VideoCodecs.kt:34-36 | `hasCodec`: membership in `supportedCodecs`. |
| Codecs.MaskOf | lib/src/main/java/video/api/rtmpdroid/internal/VideoCodecs.kt:69-80 | What `fromMimeTypes` computes: the OR of the flags, or the first type without one. `FromMimeTypes` proves that the loop computes it, and `MaskMeaning` says what it holds. |
| Codecs.ComputeSupportedCodecs | lib/src/main/java/video/api/rtmpdroid/internal/VideoCodecs.kt:18-26 | The loop builds the MIME types whose flag is set, in table order. |
| Codecs.FromMimeTypes | lib/src/main/java/video/api/rtmpdroid/internal/VideoCodecs.kt:69-80 | The OR-fold answers the mask of the list, or the unsupported type it throws on. |
| Codecs.MaskErrorPersists | lib/src/main/java/video/api/rtmpdroid/internal/VideoCodecs.kt:75-77 | Once a prefix is rejected, the whole list is rejected with the same type. |
| Codecs.MaskMeaning | lib/src/main/java/video/api/rtmpdroid/internal/VideoCodecs.kt:69-80 | A list is accepted exactly when every type is supported. The H.263 bit is set exactly when H.263 is listed, the AVC bit exactly when AVC is listed, and no other bit is set. |
| Codecs.SupportedCodecsMeaning | lib/src/main/java/video/api/rtmpdroid/internal/VideoCodecs.kt:18-36 | `hasCodec(m)` holds exactly when m is H.263 and its bit is set, or AVC and its bit is set. Other bits are ignored. |
| Codecs.MaskRoundTrip | lib/src/main/java/video/api/rtmpdroid/internal/VideoCodecs.kt:69-80 | For a list of supported types, the codecs of its mask are exactly the types of the list. |
| Codecs.MaskErrorIsFirstUnsupported | lib/src/main/java/video/api/rtmpdroid/internal/VideoCodecs.kt:71-77 | The type `fromMimeTypes` throws on is the first unsupported one of the list. |
| Codecs.PrefixSupported | lib/src/main/java/video/api/rtmpdroid/internal/VideoCodecs.kt:71-77 | A list `fromMimeTypes` accepts names supported types only. |
| Codecs.ExCodecs | lib/src/main/java/video/api/rtmpdroid/internal/VideoCodecs.kt:129-136 | The enhanced table: VP9 and HEVC, and AV1 only when the API level is at least Q. |
| Codecs.IsSupportedExCodec | lib/src/main/java/video/api/rtmpdroid/internal/VideoCodecs.kt:144-146 | `ExVideoCodecs.isSupportedCodec`: the type is a key of the enhanced table. |
| Codecs.Split | lib/src/main/java/video/api/rtmpdroid/internal/VideoCodecs.kt:90 | `split(",")` always answers at least one piece. |
| Codecs.SplitPiece | lib/src/main/java/video/api/rtmpdroid/internal/VideoCodecs.kt:90 | A comma-free piece splits to itself, and a piece followed by a comma splits off first. |
| Codecs.SplitJoin | lib/src/main/java/video/api/rtmpdroid/internal/VideoCodecs.kt:164 | Splitting what `joinToString(",")` wrote gives the pieces back, when no piece holds a comma. |
| Codecs.Join | lib/src/main/java/video/api/rtmpdroid/internal/VideoCodecs.kt:164 | `joinToString(",")`. `SplitJoin` proves that splitting undoes it. |
| Codecs.ExVideoCodecs.FourCCList | lib/src/main/java/video/api/rtmpdroid/internal/VideoCodecs.kt:90 | `fourCCList`: the pieces of `value` split at commas, or the empty list for null. |
| Codecs.ListedIn | lib/src/main/java/video/api/rtmpdroid/internal/VideoCodecs.kt:103-111 | The table's types whose FourCC is listed, in table order. `ListedFromTable` gives its members. |
| Codecs.ExVideoCodecs.SupportedCodecs | lib/src/main/java/video/api/rtmpdroid/internal/VideoCodecs.kt:103-111 | `supportedCodecs` of the enhanced class: `ListedIn` over the table and `fourCCList`. |
| Codecs.ExVideoCodecs.HasCodec | lib/src/main/java/video/api/rtmpdroid/internal/VideoCodecs.kt:120-122 | `hasCodec`: membership in `supportedCodecs`. |
| Codecs.ComputeExSupportedCodecs | lib/src/main/java/video/api/rtmpdroid/internal/VideoCodecs.kt:103-112 | The getter's loop builds the table's MIME types whose FourCC is listed, in table order. |
| Codecs.ListedFromTable | lib/src/main/java/video/api/rtmpdroid/internal/VideoCodecs.kt:103-112 | A type is supported exactly when the table pairs it with a listed FourCC. Unknown tags are dropped. |
| Codecs.InitNeverThrows | lib/src/main/java/video/api/rtmpdroid/internal/VideoCodecs.kt:92-98 | Every supported type passes `isSupportedCodec`, so the initialiser's check never throws. |
| Codecs.ExFromMimeTypes | lib/src/main/java/video/api/rtmpdroid/internal/VideoCodecs.kt:151-165 | `fromMimeTypes` answers null for an empty list, the joined FourCCs otherwise, or the first unsupported type. |
| Codecs.FourCCsErrorPersists | lib/src/main/java/video/api/rtmpdroid/internal/VideoCodecs.kt:160-162 | Once a prefix is rejected, the whole list is rejected with the same type. |
| Codecs.FourCCsOf | lib/src/main/java/video/api/rtmpdroid/internal/VideoCodecs.kt:155-163 | The loop of `fromMimeTypes`: each type's FourCC in list order, or the first type without one. `FourCCsMeaning` says what it holds. |
| Codecs.ExValueOf | lib/src/main/java/video/api/rtmpdroid/internal/VideoCodecs.kt:151-165 | The value `fromMimeTypes` builds: null for an empty list, otherwise the tags joined with commas. |
| Codecs.FourCCsMeaning | lib/src/main/java/video/api/rtmpdroid/internal/VideoCodecs.kt:155-163 | A list is accepted exactly when every type is supported. The tags then correspond one to one to the types, in order, each the type's own tag. |
| Codecs.TaggedExactly | lib/src/main/java/video/api/rtmpdroid/internal/VideoCodecs.kt:103-111 | For an accepted list, a type has a table entry whose tag is among the list's tags exactly when the list names that type. |
| Codecs.FourCCListOfValue | lib/src/main/java/video/api/rtmpdroid/internal/VideoCodecs.kt:90 | The `fourCCList` read back from the joined value is the list of tags `fromMimeTypes` built. |
| Codecs.ExTableFacts | lib/src/main/java/video/api/rtmpdroid/internal/VideoCodecs.kt:125-136 | The table's FourCC tags are distinct and comma-free, with or without AV1. |
| Codecs.ExRoundTrip | lib/src/main/java/video/api/rtmpdroid/internal/VideoCodecs.kt:151-165 | For a list of supported types, the codecs of the joined FourCC value are exactly the types of the list. |
| Packets.ToUint8 | lib/src/main/cpp/models/RtmpPacket.h:59-60 | Storing an `int` in a `uint8_t` keeps a value in [0, 256) and otherwise keeps it modulo 256. |
| Packets.ToUint32 | lib/src/main/cpp/models/RtmpPacket.h:66 | Storing the capacity in a `uint32_t` keeps any value in [0, 2^32) and otherwise keeps it modulo 2^32, so -1 becomes 0xFFFFFFFF. |
| Packets.BufferAddress | lib/src/main/cpp/models/RtmpPacket.h:65 | `GetDirectBufferAddress`: a heap buffer gives NULL. |
| Packets.BufferCapacity | lib/src/main/cpp/models/RtmpPacket.h:66 | `GetDirectBufferCapacity`: negative (-1) exactly for a heap buffer. |
| Packets.ToNative | lib/src/main/cpp/models/RtmpPacket.h:58-66 | The record `getNative` fills in: channel, both types through `uint8_t`, zero timing fields, the buffer's address and capacity. `ManagedRoundTrip`, `HeapBufferRecord` and `TimestampIgnored` say what it keeps. |
| Packets.ToManaged | lib/src/main/cpp/models/RtmpPacket.h:88-92 | The packet `getJava` builds: the record's fields, its timestamp through the signed 32-bit view, and a direct buffer over its body. `NativeRoundTrip` says what it keeps. |
| Packets.ManagedRoundTrip | lib/src/main/cpp/models/RtmpPacket.h:58-66 | Managed to native and back keeps the channel, both types (when they fit a byte) and a direct body, with the buffer's full capacity. The timestamp comes back as 0. |
| Packets.HeapBufferRecord | lib/src/main/cpp/models/RtmpPacket.h:64-66 | A packet over a heap buffer gets a NULL body of size 0xFFFFFFFF, so it does not survive the round trip. |
| Packets.TimestampIgnored | lib/src/main/cpp/models/RtmpPacket.h:61-63 | The managed timestamp never reaches the record. Timestamp, info field 2 and the absolute flag are always 0. |
| Packets.NativeRoundTrip | lib/src/main/cpp/models/RtmpPacket.h:88-92 | Native to managed and back restores the record, except that the three timing fields become 0. |
| Packets.PacketRecord.constructor | lib/src/main/cpp/models/RtmpPacket.h:51 | A `malloc`ed record holds whatever the memory held. |
| Packets.NativeMemory.Free | lib/src/main/cpp/glue.cpp:156 | `free` releases one record and nothing else. |
| Packets.GetNative | lib/src/main/cpp/models/RtmpPacket.h:9-71 | Null exactly when the class or a field is not found or `malloc` fails, and then no record is left allocated. Otherwise one fresh record holds the conversion of the packet, a heap buffer giving a NULL body of size 0xFFFFFFFF. The class reference is released on every path. |
| Packets.GetJava | lib/src/main/cpp/models/RtmpPacket.h:73-94 | A packet exactly when the class and its constructor are found and `NewObject` answers an object, and then it is the conversion of the record. No native memory changes, and the class reference is held exactly when class and constructor are found. |
| Glue.StatusOf | lib/src/main/cpp/glue.cpp:31-36 | The status is -1 exactly when librtmp answers FALSE, and 0 otherwise. |
| Glue.PriorityOf | lib/src/main/cpp/glue.cpp:369-391 | The Android priority for a librtmp level: FATAL, ERROR, WARN, INFO, DEBUG, then VERBOSE for DEBUG2 and ALL, and UNKNOWN for any other level. `PriorityMonotone` and `PriorityInjective` state its order. |
| Glue.LogLines | lib/src/main/cpp/glue.cpp:366-394 | The lines `rtmp_log_cb` prints: an error line for an unknown level, then the message. `LogLinesMeaning` states it. |
| Glue.LogLinesMeaning | lib/src/main/cpp/glue.cpp:366-394 | A known level prints one line, and an unknown level prints an error line first. librtmp's message is always printed last, at the unknown priority exactly when the level is unknown. |
| Glue.PriorityMonotone | lib/src/main/cpp/glue.cpp:366-394 | More severe librtmp levels never map to less severe Android priorities. Every known level lands between VERBOSE and FATAL. |
| Glue.PriorityInjective | lib/src/main/cpp/glue.cpp:385-387 | Two distinct known levels share a priority exactly when they are DEBUG2 and ALL. |
| Glue.ReadGuardAsWritten | lib/src/main/cpp/glue.cpp:136 | The guard as written: only the window's end is compared with the array length. |
| Glue.ReadGuard | lib/src/main/cpp/glue.cpp:136 | The corrected guard: offset and size non-negative and the window's end inside the array. |
| Glue.ReadGuardAdmitsNegativeOffset | lib/src/main/cpp/glue.cpp:136 | The guard as written accepts offset -1 in a 10-byte array, a byte outside the array. |
| Glue.ReadGuardMeaning | lib/src/main/cpp/glue.cpp:136-138 | The corrected guard accepts a window exactly when every byte of it lies in the array (for a non-empty window). |
| Glue.ReadGuardsAgree | lib/src/main/cpp/glue.cpp:136 | For non-negative offsets and sizes, the guard as written and the corrected guard agree. |
| Glue.RtmpContext.Alloc | lib/src/main/cpp/glue.cpp:16-23 | A context after `RTMP_Init` holds librtmp's defaults and has had no call made on it. |
| Glue.RtmpContext.NativeSetupURL | lib/src/main/cpp/glue.cpp:25-37 | Calls `RTMP_SetupURL` once and maps its answer to a status. Nothing is promised about `Link.timeout` or the socket afterwards, since the URL's options may set them. |
| Glue.RtmpContext.NativeConnect | lib/src/main/cpp/glue.cpp:39-49 | Calls `RTMP_Connect` once and maps its answer to a status. |
| Glue.RtmpContext.NativeConnectStream | lib/src/main/cpp/glue.cpp:51-60 | Calls `RTMP_ConnectStream` once and maps its answer to a status. |
| Glue.RtmpContext.NativeDeleteStream | lib/src/main/cpp/glue.cpp:62-66 | Calls `RTMP_DeleteStream` once. |
| Glue.RtmpContext.NativeEnableWrite | lib/src/main/cpp/glue.cpp:68-72 | Calls `RTMP_EnableWrite` once. |
| Glue.RtmpContext.NativeIsConnected | lib/src/main/cpp/glue.cpp:74-79 | True exactly when `RTMP_IsConnected` answers non-zero. |
| Glue.RtmpContext.NativeSetTimeout | lib/src/main/cpp/glue.cpp:81-85 | Sets `Link.timeout` and calls nothing. |
| Glue.RtmpContext.NativeGetTimeout | lib/src/main/cpp/glue.cpp:87-91 | Answers `Link.timeout`, so a timeout set is read back. |
| Glue.RtmpContext.NativePauseAsWritten | lib/src/main/cpp/glue.cpp:93-97 | As written: calls `RTMP_Pause(rtmp, 1)` and hands back its raw answer. |
| Glue.RtmpContext.NativePause | lib/src/main/cpp/glue.cpp:93-97 | Corrected: calls `RTMP_Pause(rtmp, 1)` and maps its answer to a status like the other natives. |
| Glue.RtmpContext.NativeResumeAsWritten | lib/src/main/cpp/glue.cpp:99-103 | As written: calls `RTMP_Pause(rtmp, 0)` and hands back its raw answer. |
| Glue.RtmpContext.NativeResume | lib/src/main/cpp/glue.cpp:99-103 | Corrected: calls `RTMP_Pause(rtmp, 0)` and maps its answer to a status. |
| Glue.RtmpContext.NativeWrite | lib/src/main/cpp/glue.cpp:105-127 | Both `nativeWrite`s call `RTMP_Write` with the given window once and hand back its count unchanged. |
| Glue.RtmpContext.NativeRead | lib/src/main/cpp/glue.cpp:129-143 | As written: calls `RTMP_Read` once and hands back its count whenever the window's end is inside the array, a negative offset or size included. Otherwise it answers -1 without calling librtmp. |
| Glue.RtmpContext.NativeReadChecked | lib/src/main/cpp/glue.cpp:129-143 | Corrected: calls `RTMP_Read` only when the whole window lies inside the array, and otherwise answers -1 without calling librtmp. |
| Glue.RtmpContext.NativeWritePacketAsWritten | lib/src/main/cpp/glue.cpp:145-159 | As written: sends a null record when `getNative` fails. It frees the record only after a successful send, so a failed send leaves it allocated. |
| Glue.RtmpContext.NativeWritePacket | lib/src/main/cpp/glue.cpp:145-159 | Corrected: answers -1 without sending when no record was built. It frees the record on every path, so native memory is unchanged. |
| Glue.RtmpContext.NativeReadPacket | lib/src/main/cpp/glue.cpp:161-173 | Calls `RTMP_ReadPacket` once. It answers a packet exactly when the read succeeds and `getJava` finds its class and constructor and `NewObject` answers an object, and the packet is the conversion of the record. |
| Glue.RtmpContext.NativeClose | lib/src/main/cpp/glue.cpp:175-180 | Calls `RTMP_Close` then `RTMP_Free`, and the context is freed. |
| Glue.RtmpContext.NativeServe | lib/src/main/cpp/glue.cpp:182-192 | Stores the socket in the context, then calls `RTMP_Serve` once on a context holding it (the trace records the socket) and maps its answer to a status. |
| Session.CountResult | lib/src/main/java/video/api/rtmpdroid/Rtmp.kt:188-198 | A negative count is a SocketException, zero a SocketTimeoutException, and a positive count is returned unchanged. |
| Session.Partition | lib/src/main/java/video/api/rtmpdroid/Rtmp.kt:97-107 | The setter's split of the list into standard and extended codecs, in list order, or the first type that is neither. `PartitionMeaning` says what it holds. |
| Session.SettingsOf | lib/src/main/java/video/api/rtmpdroid/Rtmp.kt:97-115 | The two native arguments: the standard codecs' mask and the extended codecs' FourCC value. `SettingsMeaning` says when they exist. |
| Session.ReportedCodecs | lib/src/main/java/video/api/rtmpdroid/Rtmp.kt:83-91 | The getter throws exactly when the mask is at most 0. Otherwise it reports the standard codecs of the mask in table order, followed by the extended codecs of the FourCC value in table order. A type is reported exactly when one of the two has it. |
| Session.PartitionErrorPersists | lib/src/main/java/video/api/rtmpdroid/Rtmp.kt:104-106 | Once a prefix holds an unknown type, the whole list is rejected with that type. |
| Session.PartitionMeaning | lib/src/main/java/video/api/rtmpdroid/Rtmp.kt:97-107 | The setter accepts exactly the lists whose every type is a standard or extended codec. The two lists together are a permutation of the input, standard codecs on one side and extended-only codecs on the other. |
| Session.StandardNotExtended | lib/src/main/java/video/api/rtmpdroid/Rtmp.kt:100-103 | No type is both a standard and an extended codec, so the routing order does not matter. |
| Session.MaskRange | lib/src/main/java/video/api/rtmpdroid/Rtmp.kt:109 | The mask of standard codecs is 0, 4, 0x80 or 0x84, and 0 only for an empty list. |
| Session.SettingsMeaning | lib/src/main/java/video/api/rtmpdroid/Rtmp.kt:109-115 | Building the two native arguments fails exactly when the partition fails. |
| Session.ReportedFromLists | lib/src/main/java/video/api/rtmpdroid/Rtmp.kt:83-91 | For standard and extended codec lists, the getter rejects exactly an empty standard list. Otherwise it reports exactly the types of the two lists. |
| Session.CodecSettingsRoundTrip | lib/src/main/java/video/api/rtmpdroid/Rtmp.kt:82-116 | Setting a list and reading it back through natives that keep what they were given reports exactly the list's types. The getter throws exactly when the list has no standard codec. |
| Session.Rtmp.constructor | lib/src/main/java/video/api/rtmpdroid/Rtmp.kt:23-30 | The session holds the allocated context and has made no codec request. |
| Session.Rtmp.New | lib/src/main/java/video/api/rtmpdroid/Rtmp.kt:25-30 | Construction throws UnsupportedOperationException exactly when allocation fails. Otherwise the session is open on a fresh context with librtmp's defaults. |
| Session.Rtmp.IsConnected | lib/src/main/java/video/api/rtmpdroid/Rtmp.kt:37-41 | `isConnected` is librtmp's answer, with one librtmp call. |
| Session.Rtmp.Timeout | lib/src/main/java/video/api/rtmpdroid/Rtmp.kt:53-59 | The getter answers the context's timeout. It throws UnsupportedOperationException exactly when the timeout is negative. |
| Session.Rtmp.SetTimeout | lib/src/main/java/video/api/rtmpdroid/Rtmp.kt:63-67 | The setter stores the timeout. It throws UnsupportedOperationException exactly when the native reports a non-zero status. |
| Session.Rtmp.SetSupportedVideoCodecs | lib/src/main/java/video/api/rtmpdroid/Rtmp.kt:92-116 | IllegalArgumentException for an empty list or an unknown type, with no native called. Otherwise it sends the mask, then the FourCC value only if the mask was accepted. Each refusal raises UnsupportedOperationException. |
| Session.Rtmp.Connect | lib/src/main/java/video/api/rtmpdroid/Rtmp.kt:132-146 | Sets the URL, enables write only when asked, then connects, and stops at the first failure. The failures raise IllegalArgumentException, UnsupportedOperationException and ConnectException respectively. The librtmp calls made are exactly those steps. Nothing is promised about the context's timeout afterwards. |
| Session.Rtmp.ConnectStream | lib/src/main/java/video/api/rtmpdroid/Rtmp.kt:155-159 | ConnectException exactly when librtmp answers FALSE. |
| Session.Rtmp.DeleteStream | lib/src/main/java/video/api/rtmpdroid/Rtmp.kt:168-172 | UnsupportedOperationException exactly when the native reports a non-zero status. |
| Session.Rtmp.WriteBuffer | lib/src/main/java/video/api/rtmpdroid/Rtmp.kt:182-199 | A heap buffer raises IllegalArgumentException before any librtmp call. A direct buffer sends the window from position to limit, and the count is classified. |
| Session.Rtmp.WriteArray | lib/src/main/java/video/api/rtmpdroid/Rtmp.kt:211-226 | Sends the given window and classifies the count. |
| Session.Rtmp.Read | lib/src/main/java/video/api/rtmpdroid/Rtmp.kt:236-249 | With the native as written: whenever the window's end is inside the array, librtmp is called with that window and its count is classified, even for a negative offset or size. Otherwise SocketException without reaching librtmp, with the array untouched. |
| Session.Rtmp.WritePacket | lib/src/main/java/video/api/rtmpdroid/Rtmp.kt:259-263 | With the native as written: SocketException exactly when librtmp refuses the send. A packet whose record cannot be built is sent as a null record. A record whose send fails stays allocated, and it is the only record added. |
| Session.Rtmp.ReadPacket | lib/src/main/java/video/api/rtmpdroid/Rtmp.kt:273-280 | SocketException exactly when no packet comes back. Otherwise the packet is the conversion of librtmp's record. |
| Session.Rtmp.Pause | lib/src/main/java/video/api/rtmpdroid/Rtmp.kt:289-293 | With the native as written: SocketException exactly when `RTMP_Pause(rtmp, 1)` answers anything but FALSE, that is, when the pause succeeds. |
| Session.Rtmp.Resume | lib/src/main/java/video/api/rtmpdroid/Rtmp.kt:302-306 | With the native as written: SocketException exactly when `RTMP_Pause(rtmp, 0)` answers anything but FALSE, that is, when the resume succeeds. |
| Session.Rtmp.Close | lib/src/main/java/video/api/rtmpdroid/Rtmp.kt:313-318 | Closes and frees the context once and drops it. A second `close` calls nothing. |
| Session.Rtmp.Serve | lib/src/main/java/video/api/rtmpdroid/Rtmp.kt:329-333 | The handshake runs on a context holding the socket. SocketException exactly when the handshake fails. |

## Left out

- librtmp itself (`RTMP_*`, `AMF_Encode*`, `RTMP_Alloc`) is not part of this model.
  - Session results enter as unconstrained parameters.
  - The AMF primitives are specified from the AMF0 format.
  - The bytes `RTMP_Read` stores into the array are not modelled. Only the count it answers is.
- Glue.RtmpContext: what librtmp writes into the context's `Link.timeout` and `m_sb.sb_socket` is not modelled. Every native that calls librtmp leaves both fields unconstrained, because `RTMP_SetupURL` applies a `timeout=` option appended to the URL, `RTMP_Connect` stores the socket it opens, and a failed read or write closes it. So the session promises nothing about its timeout after `connect` or any other call that reaches librtmp, and `serve` records the socket handed to `RTMP_Serve` in the trace rather than promising what the field holds afterwards.
- Glue.RtmpContext.NativeSetupURL, Glue.RtmpContext.NativeConnect, Session.Rtmp.Connect: promise nothing about the timeout or the socket after the call. The value a `timeout=` URL option sets and the socket `RTMP_Connect` opens are not computed.
- Session.Rtmp.Read: the contents of the array after a read that reaches librtmp are left unconstrained. `RTMP_Read` writes the received bytes there, and the model does not say which.
- Packets.GetNative: the body address and capacity of a heap buffer are the JNI answers NULL and -1. What librtmp does when it sends such a record is not modelled.
- Resolving the context pointer through JNI reflection (`RTMPWrapper.h`) is not modelled. The model's context is the object the session holds. `lib/src/main/cpp/models/RtmpWrapper.h` depends on a `RtmpContext.h` that is not part of this model.
- The status of natives that glue.cpp does not define is a parameter. The Kotlin side declares `nativeEnableWrite`, `nativeSetTimeout` and `nativeDeleteStream` as returning Int. The glue declares them `void`, and it has no codec natives at all.
- Session operations after `close` require an open session. The glue would hand librtmp a null context, which is undefined behaviour. The library's own test expects an exception there.
- The source accepts a negative timeout in the setter and refuses it in the getter. The model keeps that behaviour as it is.
- Setting a list of extended codecs alone sends mask 0, which the getter refuses. The codec round trip therefore states that case as an error, as the source behaves.
- JNI registration, `JNI_OnLoad`, library loading, `GetStringUTFChars`/`Release*` pairing, and the `synchronized` blocks around writes (concurrency) are not modelled.
- `nativeSetupURL` logs the URL after releasing its characters. Log text is not modelled, only the lines' priorities.
- Floating point: an AMF0 Number is an opaque 64-bit pattern.
- Non-ASCII strings are not modelled. For them the UTF-16 length `getParameterSize` counts differs from the modified UTF-8 length the natives write.
- AmfModel.ParameterSize: sizes are unbounded integers, while `getParameterSize`, `sumOf` and `minBufferSize` add in 32-bit Kotlin `Int`. A list whose sizes total 2^31 or more (32768 strings of 65535 characters, say) wraps to a negative size in the source, and `ByteBuffer.allocateDirect` then throws IllegalArgumentException. `AmfModel.SizeSum`, `AmfEncoding.AmfEncoder.MinBufferSize` and `AmfEncoding.AmfEncoder.Encode` hold as stated only for totals below 2^31, and the model does not capture the wrap-around.
- AmfEncoding.EcmaArray.AsParameter: parameters are value snapshots taken when `add` is called. The source stores the `EcmaArray` or `NamedParameter` object by reference and reads its list at encode time, so an element added to an array after it was handed to the encoder is encoded there but not in the model. Aliasing between the encoder and the arrays it holds is not modelled.
- A Kotlin `Short` is sized 2 by `getParameterSize`, but `encode` has no branch for it. The model keeps that (the encoder raises the unsupported-type error).
- C `int` overflow of `offset + size` in `nativeRead`, and an out-of-range offset passed to `nativeWrite`, are not modelled. `nativeWrite` has no bounds check, and the model records the window it is given.
- Fields of the native record that `getNative` leaves uninitialised (`m_nBytesRead`, `m_chunk`) are not part of the modelled record. How long the body `getJava` wraps stays valid is decided by librtmp and is not modelled.
- `getJava` keeps its local class reference on success until the native call returns. The model counts it as held.
- The Android `MediaFormat` MIME strings are modelled as distinct constants, and the API level as a boolean "AV1 available".

## Findings

| source | as written | input that shows it | evidently intended | confidence | as-written member | corrected member |
|---|---|---|---|---|---|---|
| lib/src/main/cpp/glue.cpp:93-103 | `nativePause`/`nativeResume` return `RTMP_Pause`'s raw result, which is TRUE (1) on success, and `pause()`/`resume()` throw on any non-zero status | librtmp answers TRUE: `pause()` raises SocketException although the pause succeeded | map FALSE to -1 and anything else to 0, like the other natives | not executed | Glue.RtmpContext.NativePauseAsWritten, Glue.RtmpContext.NativeResumeAsWritten, Glue.PauseScenario | Glue.RtmpContext.NativePause, Glue.RtmpContext.NativeResume |
| lib/src/main/cpp/glue.cpp:145-159 | the record is freed only after a successful send; when `getNative` fails, a null record is passed to `RTMP_SendPacket` | `RTMP_SendPacket` answers FALSE: the record stays allocated. A missing field: a null record is sent | free the record on every path, and refuse without sending when no record was built | not executed | Glue.RtmpContext.NativeWritePacketAsWritten, Glue.WritePacketScenario | Glue.RtmpContext.NativeWritePacket |
| lib/src/main/cpp/glue.cpp:136 | the guard checks only `dataLength >= offset + size` | length 10, offset -1, size 1: accepted, so `RTMP_Read` writes one byte before the array | also require a non-negative offset and size | not executed | Glue.RtmpContext.NativeRead, Glue.ReadGuardAdmitsNegativeOffset, Glue.ReadScenario | Glue.RtmpContext.NativeReadChecked, Glue.ReadGuardMeaning |
| lib/src/main/java/video/api/rtmpdroid/amf/AmfEncoder.kt:150-152 | a String is sized 3 + length whatever its length | a String of 65536 characters: sized 65539, but AMF0 writes it as a long string of 65541 bytes, so `encode()` fails | size strings longer than 65535 characters as 5 + length | not executed | AmfModel.ParameterSize, AmfModel.LongStringUndercount | AmfModel.EncodedSizeSuffices, AmfEncoding.AmfEncoder.EncodeExact |

=== FILE: amf0.dfy ===
/**
 * The AMF0 byte layouts written by the native encoders that `AmfEncoder`
 * calls (the `AMF_Encode*` primitives), re-stated from the AMF0 File Format
 * Specification, together with a reader for them. The reader is this model's
 * own reference definition: the round-trip lemmas are what pin the layouts
 * down.
 */
module Amf0 {
  import opened Bytes
  import opened Wrappers

  // Type markers (AMF0 sections 2.2 to 2.11 and 2.14); the first seven are
  // the values of the encoder's `AmfType` enum.
  const NUMBER_MARKER: byte := 0x00
  const BOOLEAN_MARKER: byte := 0x01
  const STRING_MARKER: byte := 0x02
  const OBJECT_MARKER: byte := 0x03
  const NULL_MARKER: byte := 0x05
  const ECMA_ARRAY_MARKER: byte := 0x08
  const OBJECT_END_MARKER: byte := 0x09
  const LONG_STRING_MARKER: byte := 0x0C

  /** Strings up to this length use the 16-bit length of a plain AMF0 string. */
  const MAX_SHORT_STRING: nat := 0xFFFF

  /** The values written with a leading type marker: Number (2.2), Boolean (2.3), String (2.4, 2.14). */
  datatype Scalar = Number(bits: uint64) | Boolean(b: bool) | Str(s: AsciiString)

  /** What `AMF_EncodeNumber`, `AMF_EncodeBoolean` and `AMF_EncodeString` write for a value. */
  function ScalarBytes(v: Scalar): seq<byte> {
    match v
    case Number(bits) => [NUMBER_MARKER] + BigEndian(bits, 8)
    case Boolean(b) => [BOOLEAN_MARKER, if b then 1 else 0]
    case Str(s) =>
      if |s| <= MAX_SHORT_STRING then [STRING_MARKER] + BigEndian(|s|, 2) + AsciiBytes(s)
      else [LONG_STRING_MARKER] + BigEndian(|s|, 4) + AsciiBytes(s)
  }

  /** The width of a scalar on the wire, stated from its kind rather than from its bytes. */
  function ScalarSize(v: Scalar): (n: nat)
    ensures n == |ScalarBytes(v)|
    ensures v.Boolean? ==> n == 2
    ensures v.Number? ==> n == 9
    ensures v.Str? && |v.s| <= MAX_SHORT_STRING ==> n == 3 + |v.s|
    ensures v.Str? && |v.s| > MAX_SHORT_STRING ==> n == 5 + |v.s|
  {
    |ScalarBytes(v)|
  }

  /** `AMF_EncodeInt32`: four raw big-endian bytes, no marker. */
  function Int32Bytes(v: int): seq<byte> {
    BigEndian(v, 4)
  }

  /** `AMF_EncodeInt24`: three raw big-endian bytes, no marker. */
  function Int24Bytes(v: int): seq<byte> {
    BigEndian(v, 3)
  }

  /** The AMF0 object-end footer (section 2.11 of the AMF0 specification): an empty name followed by the end marker. */
  function ObjectEnd(): (r: seq<byte>)
    ensures r == [0, 0, OBJECT_END_MARKER]
  {
    assert Int24Bytes(OBJECT_END_MARKER) == [0, 0, OBJECT_END_MARKER];
    Int24Bytes(OBJECT_END_MARKER)
  }

  /** An AMF0 property name (section 2.5 of the AMF0 specification): a 16-bit length, truncated as a C `short` is, then the bytes. */
  function NameBytes(name: AsciiString): seq<byte> {
    BigEndian(|name|, 2) + AsciiBytes(name)
  }

  /** What the `AMF_EncodeNamed*` primitives write: the name, then the value with its marker. */
  function PropertyBytes(name: AsciiString, v: Scalar): seq<byte> {
    NameBytes(name) + ScalarBytes(v)
  }

  /** Reads a typed scalar at the front of `s`; answers the value and the bytes it took. */
  function DecodeScalar(s: seq<byte>): (r: Option<(Scalar, nat)>)
    ensures r.Some? ==> r.value.1 <= |s|
  {
    if |s| == 0 then None
    else if s[0] == NUMBER_MARKER then
      if |s| < 9 then None
      else Pow256Values(); Some((Number(FromBigEndian(s[1..9])), 9))
    else if s[0] == BOOLEAN_MARKER then
      if |s| < 2 then None else Some((Boolean(s[1] != 0), 2))
    else if s[0] == STRING_MARKER || s[0] == LONG_STRING_MARKER then
      var w := if s[0] == STRING_MARKER then 2 else 4;
      if |s| < 1 + w then None
      else
        var len := FromBigEndian(s[1..1 + w]);
        if |s| < 1 + w + len || !IsAsciiBytes(s[1 + w..1 + w + len]) then None
        else Some((Str(AsciiOf(s[1 + w..1 + w + len])), 1 + w + len))
    else None
  }

  /** Reads a named property (name, then typed scalar) at the front of `s`. */
  function DecodeProperty(s: seq<byte>): (r: Option<(AsciiString, Scalar, nat)>)
    ensures r.Some? ==> r.value.2 <= |s|
  {
    if |s| < 2 then None
    else
      var len := FromBigEndian(s[..2]);
      if |s| < 2 + len || !IsAsciiBytes(s[2..2 + len]) then None
      else
        var value := DecodeScalar(s[2 + len..]);
        if value.None? then None
        else Some((AsciiOf(s[2..2 + len]), value.value.0, 2 + len + value.value.1))
  }

  lemma Pow256Values()
    ensures Pow256(2) == 0x1_0000 && Pow256(4) == 0x1_0000_0000
    ensures Pow256(8) == 0x1_0000_0000_0000_0000
  {
    assert Pow256(1) == 0x100;
    assert Pow256(2) == 0x1_0000;
    assert Pow256(3) == 0x100_0000;
    assert Pow256(4) == 0x1_0000_0000;
    assert Pow256(5) == 0x100_0000_0000;
    assert Pow256(6) == 0x1_0000_0000_0000;
    assert Pow256(7) == 0x100_0000_0000_0000;
  }

  /**
   * Decoding what the scalar encoders wrote gives back the value and its
   * width, whatever follows it (JVM strings are shorter than 2^32).
   */
  lemma ScalarRoundTrip(v: Scalar, rest: seq<byte>)
    requires v.Str? ==> |v.s| < 0x1_0000_0000
    ensures DecodeScalar(ScalarBytes(v) + rest) == Some((v, |ScalarBytes(v)|))
  {
    Pow256Values();
    var e := ScalarBytes(v);
    var s := e + rest;
    match v
    case Number(bits) =>
      assert s[1..9] == BigEndian(bits, 8);
      BigEndianRoundTrip(bits, 8);
    case Boolean(b) =>
    case Str(str) =>
      var w := if |str| <= MAX_SHORT_STRING then 2 else 4;
      assert s[1..1 + w] == BigEndian(|str|, w);
      BigEndianRoundTrip(|str|, w);
      assert s[1 + w..1 + w + |str|] == AsciiBytes(str);
      AsciiRoundTrip(str);
  }

  /** Decoding a named property gives back the name, the value and the width, whatever follows. */
  lemma PropertyRoundTrip(name: AsciiString, v: Scalar, rest: seq<byte>)
    requires |name| <= MAX_SHORT_STRING
    requires v.Str? ==> |v.s| < 0x1_0000_0000
    ensures DecodeProperty(PropertyBytes(name, v) + rest)
         == Some((name, v, |PropertyBytes(name, v)|))
  {
    var s := PropertyBytes(name, v) + rest;
    PropertySlices(name, v, rest);
    NameRoundTrip(name);
    ScalarRoundTrip(v, rest);
    DecodePropertyParts(s, name, v, |ScalarBytes(v)|);
  }

  lemma PropertySlices(name: AsciiString, v: Scalar, rest: seq<byte>)
    ensures var s := PropertyBytes(name, v) + rest;
      && |s| == 2 + |name| + |ScalarBytes(v)| + |rest|
      && s[..2] == BigEndian(|name|, 2)
      && s[2..2 + |name|] == AsciiBytes(name)
      && s[2 + |name|..] == ScalarBytes(v) + rest
  {
    var n := BigEndian(|name|, 2);
    var a := AsciiBytes(name);
    var e := ScalarBytes(v);
    assert PropertyBytes(name, v) + rest == n + (a + (e + rest));
  }

  lemma NameRoundTrip(name: AsciiString)
    requires |name| <= MAX_SHORT_STRING
    ensures FromBigEndian(BigEndian(|name|, 2)) == |name|
    ensures IsAsciiBytes(AsciiBytes(name)) && AsciiOf(AsciiBytes(name)) == name
  {
    assert Pow256(2) == 0x1_0000 by { assert Pow256(1) == 0x100; }
    BigEndianRoundTrip(|name|, 2);
    AsciiRoundTrip(name);
  }

  lemma DecodePropertyParts(s: seq<byte>, name: AsciiString, v: Scalar, n: nat)
    requires |s| >= 2 + |name| && FromBigEndian(s[..2]) == |name|
    requires IsAsciiBytes(s[2..2 + |name|]) && AsciiOf(s[2..2 + |name|]) == name
    requires DecodeScalar(s[2 + |name|..]) == Some((v, n))
    ensures DecodeProperty(s) == Some((name, v, 2 + |name| + n))
  {
  }
}

=== FILE: amf_encoder.dfy ===
/**
 * The encoder as the program runs it: a `ByteBuffer` whose cursor the
 * encoder moves, the JNI `nativeEncode*` entry points that write into the
 * buffer's memory, and the `AmfEncoder` and `EcmaArray` objects whose
 * parameter lists `add` extends. Each method is proved to do what the
 * functions of `AmfModel` say.
 */
module AmfEncoding {
  import opened Bytes
  import opened Wrappers
  import Amf0
  import opened AmfModel

  /** A `java.nio.ByteBuffer`: fixed storage, a cursor and a limit. */
  class ByteBuffer {
    const data: array<byte>
    var position: nat
    var limit: nat
    const isDirect: bool

    predicate Valid()
      reads this
    {
      position <= limit <= data.Length
    }

    /** The buffer as the encoder's window. */
    function View(): (w: Window)
      reads this, data
      requires Valid()
      ensures w.Valid() && w.position == position && w.limit == limit && w.bytes == data[..]
    {
      Window(data[..], position, limit)
    }

    /**
     * After a step from window `w0`: on success the buffer is the step's
     * window; on an exception the cursor is where the step threw, the limit is
     * unchanged and nothing outside `w0`'s `[position, limit)` was touched.
     */
    predicate Reached(w0: Window, r: Step)
      reads this, data
      requires Valid()
    {
      match r
      case Done(w) => View() == w
      case Failed(_, q) =>
        position == q && limit == w0.limit && SameOutside(data[..], w0.bytes, w0.position, w0.limit)
    }

    /** `ByteBuffer.allocateDirect(capacity)` (or `allocate` when not direct): zeroed, cursor 0, limit at capacity. */
    constructor Allocate(capacity: nat, direct: bool)
      ensures Valid() && fresh(data)
      ensures data[..] == seq(capacity, _ => 0)
      ensures position == 0 && limit == capacity && isDirect == direct
    {
      data := new byte[capacity](_ => 0);
      position := 0;
      limit := capacity;
      isDirect := direct;
    }

    /** `put(b)`: one byte at the cursor, or BufferOverflowException when the cursor is at the limit. */
    method Put(b: byte) returns (ok: bool)
      requires Valid()
      modifies this, data
      ensures Valid()
      ensures Reached(old(View()), PutByte(old(View()), b))
      ensures ok <==> PutByte(old(View()), b).Done?
    {
      if position >= limit {
        return false;
      }
      data[position] := b;
      position := position + 1;
      return true;
    }

    /** `rewind()`: the cursor back to 0, contents and limit kept. */
    method Rewind()
      requires Valid()
      modifies this
      ensures Valid() && position == 0 && limit == old(limit)
    {
      position := 0;
    }
  }

  /** The exception a step raised, if any. */
  function ErrorOf(r: Step): (e: Option<EncodeError>)
    ensures e.None? <==> r.Done?
  {
    if r.Done? then None else Some(r.error)
  }

  /**
   * One `nativeEncode*` entry point: the primitive writes `enc` at `offset`
   * if it fits before `end`, and the glue answers the new absolute offset,
   * or -1 when the primitive refused. A refusal is only promised to leave the
   * bytes outside `[offset, end)` alone.
   */
  method NativeEncode(buffer: ByteBuffer, offset: int, end: int, enc: seq<byte>) returns (ret: int)
    requires 0 <= offset <= end <= buffer.data.Length
    modifies buffer.data
    ensures ret == -1 || ret == offset + |enc|
    ensures ret != -1 <==> offset + |enc| <= end
    ensures ret != -1 ==> buffer.data[..] == Write(Window(old(buffer.data[..]), offset, end), enc).bytes
    ensures ret == -1 ==> forall j | 0 <= j < buffer.data.Length && !(offset <= j < end) :: buffer.data[j] == old(buffer.data[j])
  {
    if offset + |enc| > end {
      return -1;
    }
    for k := 0 to |enc|
      invariant forall j | 0 <= j < buffer.data.Length ::
        buffer.data[j] == if offset <= j < offset + k then enc[j - offset] else old(buffer.data[j])
    {
      buffer.data[offset + k] := enc[k];
    }
    ghost var expected := Write(Window(old(buffer.data[..]), offset, end), enc).bytes;
    assert forall j | 0 <= j < buffer.data.Length :: buffer.data[j] == expected[j] by {
      forall j | 0 <= j < buffer.data.Length
        ensures buffer.data[j] == expected[j]
      {
        if offset <= j < offset + |enc| {
          assert expected[offset..offset + |enc|][j - offset] == expected[j];
        }
      }
    }
    return offset + |enc|;
  }

  /** A native encoder called at the cursor, then `if (size < 0) throw ...` and `buffer.position(size)`. */
  method EncodeNative(buffer: ByteBuffer, enc: seq<byte>) returns (err: Option<EncodeError>)
    requires buffer.Valid()
    modifies buffer, buffer.data
    ensures buffer.Valid()
    ensures buffer.Reached(old(buffer.View()), Native(old(buffer.View()), enc))
    ensures err == ErrorOf(Native(old(buffer.View()), enc))
  {
    var size := NativeEncode(buffer, buffer.position, buffer.limit, enc);
    if size < 0 {
      return Some(OutOfBounds(buffer.position));
    }
    buffer.position := size;
    return None;
  }

  /** The private `encode(buffer, parameter)`: one parameter at the cursor. */
  method EncodeParameter(buffer: ByteBuffer, p: Parameter) returns (err: Option<EncodeError>)
    requires buffer.Valid()
    modifies buffer, buffer.data
    ensures buffer.Valid()
    ensures buffer.Reached(old(buffer.View()), Put(old(buffer.View()), p))
    ensures err == ErrorOf(Put(old(buffer.View()), p))
    decreases p, 0
  {
    ghost var w0 := buffer.View();
    match p
    case Bool(b) =>
      err := EncodeNative(buffer, Amf0.ScalarBytes(Amf0.Boolean(b)));
    case Int(v) =>
      err := EncodeNative(buffer, Amf0.Int32Bytes(v));
    case Double(bits) =>
      err := EncodeNative(buffer, Amf0.ScalarBytes(Amf0.Number(bits)));
    case Str(s) =>
      err := EncodeNative(buffer, Amf0.ScalarBytes(Amf0.Str(s)));
    case Null =>
      var ok := buffer.Put(Amf0.NULL_MARKER);
      err := if ok then None else Some(Overflow);
    case Named(name, value) =>
      var scalar := NamedScalar(value);
      if scalar.None? {
        err := Some(UnsupportedNamedType);
      } else {
        err := EncodeNative(buffer, Amf0.PropertyBytes(name, scalar.value));
      }
    case Object(cs) =>
      err := EncodeObject(buffer, cs);
    case Ecma(cs) =>
      err := EncodeEcma(buffer, cs);
    case Short(_) =>
      err := Some(UnsupportedType);
    case Unsupported =>
      err := Some(UnsupportedType);
  }

  /** An object: its marker, its children, the end marker. */
  method EncodeObject(buffer: ByteBuffer, cs: seq<Parameter>) returns (err: Option<EncodeError>)
    requires buffer.Valid()
    modifies buffer, buffer.data
    ensures buffer.Valid()
    ensures buffer.Reached(old(buffer.View()), Put(old(buffer.View()), Object(cs)))
    ensures err == ErrorOf(Put(old(buffer.View()), Object(cs)))
    decreases cs, 3
  {
    var ok := buffer.Put(Amf0.OBJECT_MARKER);
    if !ok {
      return Some(Overflow);
    }
    err := EncodeFrame(buffer, cs);
  }

  /** An ECMA array: its marker, the element count, its elements, the end marker. */
  method EncodeEcma(buffer: ByteBuffer, cs: seq<Parameter>) returns (err: Option<EncodeError>)
    requires buffer.Valid()
    modifies buffer, buffer.data
    ensures buffer.Valid()
    ensures buffer.Reached(old(buffer.View()), Put(old(buffer.View()), Ecma(cs)))
    ensures err == ErrorOf(Put(old(buffer.View()), Ecma(cs)))
    decreases cs, 3
  {
    var ok := buffer.Put(Amf0.ECMA_ARRAY_MARKER);
    if !ok {
      return Some(Overflow);
    }
    ghost var w1 := buffer.View();
    var count := NativeEncode(buffer, buffer.position, buffer.limit, Amf0.Int32Bytes(|cs|));
    if count < 0 {
      return Some(IllegalPosition);
    }
    buffer.position := count;
    assert buffer.View() == Native(w1, Amf0.Int32Bytes(|cs|)).w;
    err := EncodeFrame(buffer, cs);
  }

  /** The children of an object or an array, then the object-end footer. */
  method EncodeFrame(buffer: ByteBuffer, cs: seq<Parameter>) returns (err: Option<EncodeError>)
    requires buffer.Valid()
    modifies buffer, buffer.data
    ensures buffer.Valid()
    ensures buffer.Reached(old(buffer.View()), PutFrame(old(buffer.View()), cs))
    ensures err == ErrorOf(PutFrame(old(buffer.View()), cs))
    decreases cs, 2
  {
    ghost var w0 := buffer.View();
    err := EncodeEach(buffer, cs);
    if err.Some? {
      return;
    }
    ghost var w1 := buffer.View();
    err := EncodeNative(buffer, Amf0.ObjectEnd());
    assert Stays(w0, Done(w1));
  }

  /** `forEach { encode(buffer, it) }`: the parameters one by one, in list order. */
  method EncodeEach(buffer: ByteBuffer, ps: seq<Parameter>) returns (err: Option<EncodeError>)
    requires buffer.Valid()
    modifies buffer, buffer.data
    ensures buffer.Valid()
    ensures buffer.Reached(old(buffer.View()), PutAll(old(buffer.View()), ps))
    ensures err == ErrorOf(PutAll(old(buffer.View()), ps))
    decreases ps, 1
  {
    ghost var w0 := buffer.View();
    var i := 0;
    while i < |ps|
      invariant 0 <= i <= |ps|
      invariant buffer.Valid()
      invariant Stays(w0, Done(buffer.View()))
      invariant PutAll(w0, ps) == PutAll(buffer.View(), ps[i..])
    {
      ghost var w := buffer.View();
      assert ps[i..][0] == ps[i] && ps[i..][1..] == ps[i + 1..];
      err := EncodeParameter(buffer, ps[i]);
      if err.Some? {
        return;
      }
      i := i + 1;
    }
    return None;
  }

  /** `AmfEncoder`: the parameters added so far, in insertion order. */
  class AmfEncoder {
    var parameters: seq<Parameter>

    constructor ()
      ensures parameters == []
    {
      parameters := [];
    }

    /** `add(parameter)`. */
    method Add(p: Parameter)
      modifies this
      ensures parameters == old(parameters) + [p]
    {
      parameters := parameters + [p];
    }

    /** `add(name, value)`: the same as adding a named parameter. */
    method AddNamed(name: AsciiString, value: Parameter)
      modifies this
      ensures parameters == old(parameters) + [Named(name, value)]
    {
      parameters := parameters + [Named(name, value)];
    }

    /**
     * `minBufferSize`: fails on a parameter of an unknown type; for encodable
     * parameters without long strings it is the exact length of the encoding.
     */
    function MinBufferSize(): (r: Result<int, EncodeError>)
      reads this
      ensures r.Ok? ==> r.value >= |parameters|
      ensures r.Err? ==> r.error == UnsupportedType
      ensures EncodingAll(parameters).Ok? && AllShortStrings(parameters)
          ==> r == Ok(|EncodingAll(parameters).value|)
    {
      if EncodingAll(parameters).Ok? && AllShortStrings(parameters) then
        SizeSumsAgree(parameters);
        EncodedSizeSumExact(parameters);
        SizeSum(parameters)
      else
        SizeSum(parameters)
    }

    /** `encode(buffer)`: refuses a heap buffer, then encodes every parameter at the cursor. */
    method EncodeInto(buffer: ByteBuffer) returns (err: Option<EncodeError>)
      requires buffer.Valid()
      modifies buffer, buffer.data
      ensures buffer.Valid()
      ensures !buffer.isDirect ==> err == Some(NotDirect) && buffer.View() == old(buffer.View())
      ensures buffer.isDirect ==> buffer.Reached(old(buffer.View()), PutAll(old(buffer.View()), parameters))
      ensures buffer.isDirect ==> err == ErrorOf(PutAll(old(buffer.View()), parameters))
    {
      if !buffer.isDirect {
        return Some(NotDirect);
      }
      err := EncodeEach(buffer, parameters);
    }

    /**
     * `encode()`: allocates `minBufferSize` bytes, encodes into them and
     * rewinds. A result is always exactly the encoding of the parameters;
     * it is guaranteed when there is no long string.
     */
    method Encode() returns (r: Result<ByteBuffer, EncodeError>)
      ensures MinBufferSize().Err? ==> r == Err(UnsupportedType)
      ensures r.Ok? ==> EncodingAll(parameters).Ok? && fresh(r.value) && fresh(r.value.data)
      ensures r.Ok? ==> r.value.Valid() && r.value.isDirect && r.value.position == 0
      ensures r.Ok? ==> r.value.data[..] == EncodingAll(parameters).value
      ensures r.Ok? ==> r.value.limit == |EncodingAll(parameters).value|
      ensures EncodingAll(parameters).Ok? && AllShortStrings(parameters) ==> r.Ok?
      ensures r.Err? && EncodingAll(parameters).Ok? ==> IsWindowError(r.error)
    {
      if EncodingAll(parameters).Ok? {
        SizeSumAtMostEncoded(parameters);
        EncodedSizeSumExact(parameters);
      }
      var size :- MinBufferSize();
      var buffer := new ByteBuffer.Allocate(size, true);
      ghost var w0 := buffer.View();
      var err := EncodeInto(buffer);
      PutAllMeaning(w0, parameters);
      if EncodingAll(parameters).Ok? {
        PutAllFailsOnlyForRoom(w0, parameters);
        if AllShortStrings(parameters) {
          MinBufferSizeSuffices(parameters, w0.bytes);
        }
      }
      if err.Some? {
        return Err(err.value);
      }
      assert buffer.data[..] == EncodingAll(parameters).value;
      buffer.Rewind();
      return Ok(buffer);
    }

    /**
     * `encode()` with the allocation taken from the wire size: for every
     * encodable list, long strings included, it succeeds with exactly the
     * encoding.
     */
    method EncodeExact() returns (r: Result<ByteBuffer, EncodeError>)
      ensures r.Ok? <==> EncodingAll(parameters).Ok?
      ensures r.Ok? ==> fresh(r.value) && fresh(r.value.data)
      ensures r.Ok? ==> r.value.Valid() && r.value.isDirect && r.value.position == 0
      ensures r.Ok? ==> r.value.data[..] == EncodingAll(parameters).value
      ensures r.Ok? ==> r.value.limit == |EncodingAll(parameters).value|
    {
      if EncodingAll(parameters).Ok? {
        EncodedSizeSumExact(parameters);
      }
      var size :- EncodedSizeSum(parameters);
      var buffer := new ByteBuffer.Allocate(size, true);
      ghost var w0 := buffer.View();
      var err := EncodeInto(buffer);
      PutAllMeaning(w0, parameters);
      if EncodingAll(parameters).Ok? {
        EncodedSizeSuffices(parameters, w0.bytes);
      }
      if err.Some? {
        return Err(err.value);
      }
      buffer.Rewind();
      return Ok(buffer);
    }
  }

  /** `EcmaArray`: an ECMA array parameter whose elements `add` appends. */
  class EcmaArray {
    var parameters: seq<Parameter>

    constructor ()
      ensures parameters == []
    {
      parameters := [];
    }

    /** `add(parameter)`. */
    method Add(p: Parameter)
      modifies this
      ensures parameters == old(parameters) + [p]
    {
      parameters := parameters + [p];
    }

    /** `add(name, value)`: appends a named parameter. */
    method AddNamed(name: AsciiString, value: Parameter)
      modifies this
      ensures parameters == old(parameters) + [Named(name, value)]
    {
      parameters := parameters + [Named(name, value)];
    }

    /** The parameter this array is when handed to an encoder: a snapshot of its list at that moment. */
    function AsParameter(): (p: Parameter)
      reads this
      ensures p.Ecma? && p.elements == parameters
    {
      Ecma(parameters)
    }
  }
}

=== FILE: amf_model.dfy ===
/**
 * What `AmfEncoder` does to a byte window, as functions: the parameter
 * tree, the size it pre-computes for a tree (`getParameterSize`), the bytes
 * a tree stands for, and `Put`, the step-by-step behaviour of the private
 * `encode(buffer, parameter)` on a window `[position, limit)`, including the
 * exception each failing step raises. The imperative encoder in module
 * `AmfEncoding` is proved to follow `Put`; the lemmas here say what `Put`
 * means.
 */
module AmfModel {
  import opened Bytes
  import opened Wrappers
  import Amf0

  /** A parameter handed to `AmfEncoder.add`, by its runtime type. */
  datatype Parameter =
    | Bool(b: bool)
    | Short(sv: int)                             // a Kotlin `Short`: sized, but `encode` has no branch for it
    | Int(v: int32)
    | Double(bits: uint64)                       // the IEEE-754 bits of a `Double`
    | Str(s: AsciiString)
    | Null                                       // `NullParameter`
    | Named(name: AsciiString, value: Parameter) // `NamedParameter`
    | Object(children: seq<Parameter>)           // `ObjectParameter`
    | Ecma(elements: seq<Parameter>)             // `EcmaArray`, its list as it stood when added
    | Unsupported                                // a value of any other type

  /** The exceptions `encode` and `minBufferSize` raise. */
  datatype EncodeError =
    | UnsupportedType          // IOException: "Parameter type is not supported"
    | UnsupportedNamedType     // IOException: "Named parameter type is not supported"
    | OutOfBounds(at: int)     // ArrayIndexOutOfBoundsException(buffer.position())
    | Overflow                 // BufferOverflowException from `buffer.put`
    | IllegalPosition          // IllegalArgumentException from `buffer.position(-1)`
    | NotDirect                // IllegalArgumentException from `require(buffer.isDirect)`

  /** The errors raised by the buffer running out, as opposed to a type the encoder refuses. */
  predicate IsWindowError(e: EncodeError) {
    e.OutOfBounds? || e.Overflow? || e.IllegalPosition?
  }

  // ---------------------------------------------------------------------------
  // Sizes

  /** `getParameterSize`, as written: a String always counts 3 + length. */
  function ParameterSize(p: Parameter): (r: Result<int, EncodeError>)
    ensures r.Ok? ==> r.value >= 1
    ensures r.Err? ==> r.error == UnsupportedType
    decreases p
  {
    match p
    case Bool(_) => Ok(2)
    case Short(_) => Ok(2)
    case Int(_) => Ok(4)
    case Double(_) => Ok(9)
    case Str(s) => Ok(3 + |s|)
    case Null => Ok(1)
    case Named(name, value) =>
      var n :- ParameterSize(value);
      Ok(2 + |name| + n)
    case Object(cs) =>
      var n :- SizeSum(cs);
      Ok(4 + n)
    case Ecma(cs) =>
      var n :- SizeSum(cs);
      Ok(8 + n)
    case Unsupported => Err(UnsupportedType)
  }

  /** `parameters.sumOf { getParameterSize(it) }`: `minBufferSize` and the bodies of objects and arrays. */
  function SizeSum(ps: seq<Parameter>): (r: Result<int, EncodeError>)
    ensures r.Ok? ==> r.value >= |ps|
    ensures r.Err? ==> r.error == UnsupportedType
    decreases ps
  {
    if ps == [] then Ok(0)
    else
      var n :- ParameterSize(ps[0]);
      var m :- SizeSum(ps[1..]);
      Ok(n + m)
  }

  /**
   * The size a tree takes on the wire: as `ParameterSize`, except that a
   * String longer than 65535 characters is an AMF0 long string, 5 + length.
   */
  function EncodedSize(p: Parameter): (r: Result<int, EncodeError>)
    ensures r.Ok? ==> r.value >= 1
    decreases p
  {
    match p
    case Bool(_) => Ok(2)
    case Short(_) => Ok(2)
    case Int(_) => Ok(4)
    case Double(_) => Ok(9)
    case Str(s) => Ok(Amf0.ScalarSize(Amf0.Str(s)))
    case Null => Ok(1)
    case Named(name, value) =>
      var n :- EncodedSize(value);
      Ok(2 + |name| + n)
    case Object(cs) =>
      var n :- EncodedSizeSum(cs);
      Ok(4 + n)
    case Ecma(cs) =>
      var n :- EncodedSizeSum(cs);
      Ok(8 + n)
    case Unsupported => Err(UnsupportedType)
  }

  function EncodedSizeSum(ps: seq<Parameter>): (r: Result<int, EncodeError>)
    ensures r.Ok? ==> r.value >= |ps|
    decreases ps
  {
    if ps == [] then Ok(0)
    else
      var n :- EncodedSize(ps[0]);
      var m :- EncodedSizeSum(ps[1..]);
      Ok(n + m)
  }

  /** Every string value in the tree fits a plain AMF0 string (at most 65535 characters). */
  predicate ShortStrings(p: Parameter)
    decreases p
  {
    match p
    case Str(s) => |s| <= Amf0.MAX_SHORT_STRING
    case Named(_, value) => ShortStrings(value)
    case Object(cs) => AllShortStrings(cs)
    case Ecma(cs) => AllShortStrings(cs)
    case _ => true
  }

  predicate AllShortStrings(ps: seq<Parameter>)
    decreases ps
  {
    ps == [] || (ShortStrings(ps[0]) && AllShortStrings(ps[1..]))
  }

  // ---------------------------------------------------------------------------
  // The bytes a tree stands for

  /** The typed value a named parameter carries; only Boolean, Double and String have a named encoder. */
  function NamedScalar(value: Parameter): Option<Amf0.Scalar> {
    match value
    case Bool(b) => Some(Amf0.Boolean(b))
    case Double(bits) => Some(Amf0.Number(bits))
    case Str(s) => Some(Amf0.Str(s))
    case _ => None
  }

  /** The bytes `encode` writes for a parameter when the window has room, or the type error it raises. */
  function Encoding(p: Parameter): Result<seq<byte>, EncodeError>
    decreases p
  {
    match p
    case Bool(b) => Ok(Amf0.ScalarBytes(Amf0.Boolean(b)))
    case Int(v) => Ok(Amf0.Int32Bytes(v))
    case Double(bits) => Ok(Amf0.ScalarBytes(Amf0.Number(bits)))
    case Str(s) => Ok(Amf0.ScalarBytes(Amf0.Str(s)))
    case Null => Ok([Amf0.NULL_MARKER])
    case Named(name, value) =>
      (match NamedScalar(value)
       case None => Err(UnsupportedNamedType)
       case Some(v) => Ok(Amf0.PropertyBytes(name, v)))
    case Object(cs) =>
      var body :- EncodingAll(cs);
      Ok([Amf0.OBJECT_MARKER] + body + Amf0.ObjectEnd())
    case Ecma(cs) =>
      var body :- EncodingAll(cs);
      Ok([Amf0.ECMA_ARRAY_MARKER] + Amf0.Int32Bytes(|cs|) + body + Amf0.ObjectEnd())
    case Short(_) => Err(UnsupportedType)
    case Unsupported => Err(UnsupportedType)
  }

  /** The encodings of a list, one after another in list order. */
  function EncodingAll(ps: seq<Parameter>): Result<seq<byte>, EncodeError>
    decreases ps
  {
    if ps == [] then Ok([])
    else
      var head :- Encoding(ps[0]);
      var tail :- EncodingAll(ps[1..]);
      Ok(head + tail)
  }

  // ---------------------------------------------------------------------------
  // The byte window and the encoder's steps on it

  /** A buffer's bytes with its cursor `position` and its `limit`. */
  datatype Window = Window(bytes: seq<byte>, position: nat, limit: nat) {
    predicate Valid() {
      position <= limit <= |bytes|
    }
  }

  /** `a` and `b` have the same length and agree everywhere outside `[lo, hi)`. */
  predicate SameOutside(a: seq<byte>, b: seq<byte>, lo: int, hi: int) {
    |a| == |b| && forall i | 0 <= i < |a| && !(lo <= i < hi) :: a[i] == b[i]
  }

  /** `enc` written at the cursor, and the cursor moved past it. */
  function Write(w: Window, enc: seq<byte>): (r: Window)
    requires w.Valid() && w.position + |enc| <= w.limit
    ensures r.Valid() && r.limit == w.limit && r.position == w.position + |enc|
    ensures r.bytes[w.position..r.position] == enc
    ensures SameOutside(r.bytes, w.bytes, w.position, r.position)
  {
    var b := w.bytes[..w.position] + enc + w.bytes[w.position + |enc|..];
    assert b[w.position..w.position + |enc|] == enc;
    w.(bytes := b, position := w.position + |enc|)
  }

  /** The outcome of one encoding step: the new window, or the exception and the cursor at the throw. */
  datatype Step = Done(w: Window) | Failed(error: EncodeError, position: nat)

  /** A step stays within the window: nothing outside `[position, limit)` changes, the cursor only moves forward. */
  predicate Stays(w: Window, r: Step) {
    match r
    case Done(w') =>
      w'.Valid() && w'.limit == w.limit && w.position <= w'.position
      && SameOutside(w'.bytes, w.bytes, w.position, w.limit)
    case Failed(_, q) => w.position <= q <= w.limit
  }

  /** A native encoder followed by `if (size < 0) throw ...; buffer.position(size)`. */
  function Native(w: Window, enc: seq<byte>): (r: Step)
    requires w.Valid()
    ensures Stays(w, r)
  {
    if w.position + |enc| <= w.limit then Done(Write(w, enc))
    else Failed(OutOfBounds(w.position), w.position)
  }

  /** `buffer.put(b)`: one byte at the cursor, or BufferOverflowException at the limit. */
  function PutByte(w: Window, b: byte): (r: Step)
    requires w.Valid()
    ensures Stays(w, r)
  {
    if w.position < w.limit then Done(Write(w, [b])) else Failed(Overflow, w.position)
  }

  /** The private `encode(buffer, parameter)`: the branch per runtime type, in the order the source takes its steps. */
  function Put(w: Window, p: Parameter): (r: Step)
    requires w.Valid()
    ensures Stays(w, r)
    decreases p, 2
  {
    match p
    case Bool(b) => Native(w, Amf0.ScalarBytes(Amf0.Boolean(b)))
    case Int(v) => Native(w, Amf0.Int32Bytes(v))
    case Double(bits) => Native(w, Amf0.ScalarBytes(Amf0.Number(bits)))
    case Str(s) => Native(w, Amf0.ScalarBytes(Amf0.Str(s)))
    case Null => PutByte(w, Amf0.NULL_MARKER)
    case Named(name, value) =>
      (match NamedScalar(value)
       case None => Failed(UnsupportedNamedType, w.position)
       case Some(v) => Native(w, Amf0.PropertyBytes(name, v)))
    case Object(cs) =>
      var r1 := PutByte(w, Amf0.OBJECT_MARKER);
      if r1.Failed? then r1 else PutFrame(r1.w, cs)
    case Ecma(cs) =>
      var r1 := PutByte(w, Amf0.ECMA_ARRAY_MARKER);
      if r1.Failed? then r1
      else
        var r2 := Native(r1.w, Amf0.Int32Bytes(|cs|));
        if r2.Failed? then Failed(IllegalPosition, r1.w.position) else PutFrame(r2.w, cs)
    case Short(_) => Failed(UnsupportedType, w.position)
    case Unsupported => Failed(UnsupportedType, w.position)
  }

  /** The children of an object or an array, then the object-end footer `nativeEncodeInt24` writes. */
  function PutFrame(w: Window, cs: seq<Parameter>): (r: Step)
    requires w.Valid()
    ensures Stays(w, r)
    decreases cs, 1
  {
    var r := PutAll(w, cs);
    if r.Failed? then r else Native(r.w, Amf0.ObjectEnd())
  }

  /** `forEach { encode(buffer, it) }`: the parameters in list order, stopping at the first exception. */
  function PutAll(w: Window, ps: seq<Parameter>): (r: Step)
    requires w.Valid()
    ensures Stays(w, r)
    decreases ps, 0
  {
    if ps == [] then Done(w)
    else
      var r1 := Put(w, ps[0]);
      if r1.Failed? then r1 else PutAll(r1.w, ps[1..])
  }

  // ---------------------------------------------------------------------------
  // What the steps mean

  /** Writing `a` then `b` is writing `a + b`. */
  lemma WriteTwice(w: Window, a: seq<byte>, b: seq<byte>)
    requires w.Valid() && w.position + |a| + |b| <= w.limit
    ensures Write(Write(w, a), b) == Write(w, a + b)
  {
    var w1 := Write(w, a);
    var x := Write(w1, b).bytes;
    var y := Write(w, a + b).bytes;
    assert |x| == |y|;
    forall i | 0 <= i < |x|
      ensures x[i] == y[i]
    {
      if i < w.position {
      } else if i < w.position + |a| {
        assert x[i] == w1.bytes[i] == a[i - w.position];
      } else if i < w.position + |a| + |b| {
        assert x[i] == b[i - w.position - |a|];
      }
    }
  }

  /**
   * `Put` succeeds exactly when the parameter is of an encodable type and its
   * encoding fits between the cursor and the limit; it then writes exactly
   * that encoding at the cursor and moves the cursor past it.
   */
  lemma {:induction false} PutMeaning(w: Window, p: Parameter)
    requires w.Valid()
    ensures Put(w, p).Done?
        <==> Encoding(p).Ok? && w.position + |Encoding(p).value| <= w.limit
    ensures Put(w, p).Done? ==> Put(w, p).w == Write(w, Encoding(p).value)
    decreases p, 0
  {
    match p
    case Object(cs) => ObjectMeaning(w, cs);
    case Ecma(cs) => EcmaMeaning(w, cs);
    case _ =>
  }

  lemma {:induction false} ObjectMeaning(w: Window, cs: seq<Parameter>)
    requires w.Valid()
    ensures Put(w, Object(cs)).Done?
        <==> Encoding(Object(cs)).Ok? && w.position + |Encoding(Object(cs)).value| <= w.limit
    ensures Put(w, Object(cs)).Done? ==> Put(w, Object(cs)).w == Write(w, Encoding(Object(cs)).value)
    decreases cs, 2
  {
    var r1 := PutByte(w, Amf0.OBJECT_MARKER);
    if r1.Done? {
      FrameMeaning(w, [Amf0.OBJECT_MARKER], cs);
    }
  }

  lemma {:induction false} EcmaMeaning(w: Window, cs: seq<Parameter>)
    requires w.Valid()
    ensures Put(w, Ecma(cs)).Done?
        <==> Encoding(Ecma(cs)).Ok? && w.position + |Encoding(Ecma(cs)).value| <= w.limit
    ensures Put(w, Ecma(cs)).Done? ==> Put(w, Ecma(cs)).w == Write(w, Encoding(Ecma(cs)).value)
    decreases cs, 2
  {
    var r1 := PutByte(w, Amf0.ECMA_ARRAY_MARKER);
    if r1.Done? {
      var count := Amf0.Int32Bytes(|cs|);
      var r2 := Native(r1.w, count);
      if r2.Done? {
        WriteTwice(w, [Amf0.ECMA_ARRAY_MARKER], count);
        FrameMeaning(w, [Amf0.ECMA_ARRAY_MARKER] + count, cs);
      }
    }
  }

  /**
   * The children and the footer of an object or an array, written after a
   * header `head` already at the cursor.
   */
  lemma {:induction false} FrameMeaning(w: Window, head: seq<byte>, cs: seq<Parameter>)
    requires w.Valid() && w.position + |head| <= w.limit
    ensures var s := PutFrame(Write(w, head), cs);
      (s.Done? <==> EncodingAll(cs).Ok? && w.position + |head| + |EncodingAll(cs).value| + 3 <= w.limit)
      && (s.Done? ==> s.w == Write(w, head + EncodingAll(cs).value + Amf0.ObjectEnd()))
    decreases cs, 1
  {
    var w1 := Write(w, head);
    PutAllMeaning(w1, cs);
    var r := PutAll(w1, cs);
    if r.Done? {
      var body := EncodingAll(cs).value;
      WriteTwice(w, head, body);
      if r.w.position + 3 <= r.w.limit {
        WriteTwice(w, head + body, Amf0.ObjectEnd());
      }
    }
  }

  /** The same for a list: it succeeds when every element encodes and the whole encoding fits. */
  lemma {:induction false} PutAllMeaning(w: Window, ps: seq<Parameter>)
    requires w.Valid()
    ensures PutAll(w, ps).Done?
        <==> EncodingAll(ps).Ok? && w.position + |EncodingAll(ps).value| <= w.limit
    ensures PutAll(w, ps).Done? ==> PutAll(w, ps).w == Write(w, EncodingAll(ps).value)
    decreases ps, 0
  {
    if ps != [] {
      PutMeaning(w, ps[0]);
      var r1 := Put(w, ps[0]);
      if r1.Done? {
        PutAllMeaning(r1.w, ps[1..]);
        if PutAll(r1.w, ps[1..]).Done? {
          WriteTwice(w, Encoding(ps[0]).value, EncodingAll(ps[1..]).value);
        }
      }
    }
  }

  /** A parameter of an encodable type fails only for want of room, never with a type error. */
  lemma {:induction false} PutFailsOnlyForRoom(w: Window, p: Parameter)
    requires w.Valid() && Encoding(p).Ok?
    ensures Put(w, p).Failed? ==> IsWindowError(Put(w, p).error)
    decreases p
  {
    match p
    case Object(cs) =>
      var r1 := PutByte(w, Amf0.OBJECT_MARKER);
      if r1.Done? { PutAllFailsOnlyForRoom(r1.w, cs); }
    case Ecma(cs) =>
      var r1 := PutByte(w, Amf0.ECMA_ARRAY_MARKER);
      if r1.Done? {
        var r2 := Native(r1.w, Amf0.Int32Bytes(|cs|));
        if r2.Done? { PutAllFailsOnlyForRoom(r2.w, cs); }
      }
    case _ =>
  }

  lemma {:induction false} PutAllFailsOnlyForRoom(w: Window, ps: seq<Parameter>)
    requires w.Valid() && EncodingAll(ps).Ok?
    ensures PutAll(w, ps).Failed? ==> IsWindowError(PutAll(w, ps).error)
    decreases ps
  {
    if ps != [] {
      PutFailsOnlyForRoom(w, ps[0]);
      var r1 := Put(w, ps[0]);
      if r1.Done? { PutAllFailsOnlyForRoom(r1.w, ps[1..]); }
    }
  }

  /** Appending a parameter appends its encoding: parameters come out in insertion order. */
  lemma {:induction false} EncodingAllAppend(ps: seq<Parameter>, p: Parameter)
    requires EncodingAll(ps).Ok? && Encoding(p).Ok?
    ensures EncodingAll(ps + [p]) == Ok(EncodingAll(ps).value + Encoding(p).value)
    decreases ps
  {
    if ps == [] {
      EncodingAllSingle(p);
      assert ps + [p] == [p];
      assert EncodingAll(ps).value + Encoding(p).value == Encoding(p).value;
    } else {
      var x, xs := ps[0], ps[1..];
      assert ps == [x] + xs;
      assert ps + [p] == [x] + (xs + [p]);
      EncodingAllCons(x, xs);
      EncodingAllAppend(xs, p);
      EncodingAllCons(x, xs + [p]);
      var head, tail, last := Encoding(x).value, EncodingAll(xs).value, Encoding(p).value;
      assert head + (tail + last) == (head + tail) + last;
    }
  }

  /** A one-parameter list encodes as that parameter. */
  lemma EncodingAllSingle(p: Parameter)
    requires Encoding(p).Ok?
    ensures EncodingAll([p]) == Ok(Encoding(p).value)
  {
    assert [p][0] == p && [p][1..] == [];
    assert Encoding(p).value + [] == Encoding(p).value;
  }

  lemma EncodingAllCons(x: Parameter, xs: seq<Parameter>)
    requires Encoding(x).Ok? && EncodingAll(xs).Ok?
    ensures EncodingAll([x] + xs) == Ok(Encoding(x).value + EncodingAll(xs).value)
  {
    assert ([x] + xs)[0] == x;
    assert ([x] + xs)[1..] == xs;
  }

  /** The wire size of an encodable tree is the length of its encoding. */
  lemma {:induction false} EncodedSizeExact(p: Parameter)
    requires Encoding(p).Ok?
    ensures EncodedSize(p) == Ok(|Encoding(p).value|)
    decreases p
  {
    match p
    case Object(cs) => EncodedSizeSumExact(cs);
    case Ecma(cs) => EncodedSizeSumExact(cs);
    case _ =>
  }

  lemma {:induction false} EncodedSizeSumExact(ps: seq<Parameter>)
    requires EncodingAll(ps).Ok?
    ensures EncodedSizeSum(ps) == Ok(|EncodingAll(ps).value|)
    decreases ps
  {
    if ps != [] {
      EncodedSizeExact(ps[0]);
      EncodedSizeSumExact(ps[1..]);
    }
  }

  /** With no string longer than 65535 characters, `getParameterSize` is the wire size. */
  lemma {:induction false} SizesAgree(p: Parameter)
    requires ShortStrings(p)
    ensures ParameterSize(p) == EncodedSize(p)
    decreases p
  {
    match p
    case Named(_, value) => SizesAgree(value);
    case Object(cs) => SizeSumsAgree(cs);
    case Ecma(cs) => SizeSumsAgree(cs);
    case _ =>
  }

  lemma {:induction false} SizeSumsAgree(ps: seq<Parameter>)
    requires AllShortStrings(ps)
    ensures SizeSum(ps) == EncodedSizeSum(ps)
    decreases ps
  {
    if ps != [] {
      SizesAgree(ps[0]);
      SizeSumsAgree(ps[1..]);
    }
  }

  /**
   * The allocation `encode()` relies on: for encodable parameters with no
   * long string, `minBufferSize` is exactly the length of their encoding, so
   * encoding them from the start of a buffer of that size succeeds and fills it.
   */
  lemma MinBufferSizeSuffices(ps: seq<Parameter>, buf: seq<byte>)
    requires EncodingAll(ps).Ok? && AllShortStrings(ps)
    requires SizeSum(ps).Ok? ==> |buf| == SizeSum(ps).value
    ensures SizeSum(ps) == Ok(|EncodingAll(ps).value|)
    ensures PutAll(Window(buf, 0, |buf|), ps)
         == Done(Window(EncodingAll(ps).value, |buf|, |buf|))
  {
    SizeSumsAgree(ps);
    EncodedSizeSumExact(ps);
    var w := Window(buf, 0, |buf|);
    PutAllMeaning(w, ps);
    var enc := EncodingAll(ps).value;
    assert Write(w, enc).bytes == enc;
  }

  /** `getParameterSize` never over-counts: it fails exactly where the wire size does, and is never larger. */
  lemma {:induction false} SizeAtMostEncoded(p: Parameter)
    ensures ParameterSize(p).Ok? == EncodedSize(p).Ok?
    ensures ParameterSize(p).Ok? ==> ParameterSize(p).value <= EncodedSize(p).value
    decreases p
  {
    match p
    case Named(_, value) => SizeAtMostEncoded(value);
    case Object(cs) => SizeSumAtMostEncoded(cs);
    case Ecma(cs) => SizeSumAtMostEncoded(cs);
    case _ =>
  }

  lemma {:induction false} SizeSumAtMostEncoded(ps: seq<Parameter>)
    ensures SizeSum(ps).Ok? == EncodedSizeSum(ps).Ok?
    ensures SizeSum(ps).Ok? ==> SizeSum(ps).value <= EncodedSizeSum(ps).value
    decreases ps
  {
    if ps != [] {
      SizeAtMostEncoded(ps[0]);
      SizeSumAtMostEncoded(ps[1..]);
    }
  }

  /**
   * With the wire size, the allocation is right for every encodable list,
   * long strings included: encoding from the start of a buffer of that size
   * succeeds and fills it.
   */
  lemma EncodedSizeSuffices(ps: seq<Parameter>, buf: seq<byte>)
    requires EncodingAll(ps).Ok?
    requires EncodedSizeSum(ps).Ok? ==> |buf| == EncodedSizeSum(ps).value
    ensures EncodedSizeSum(ps) == Ok(|EncodingAll(ps).value|)
    ensures PutAll(Window(buf, 0, |buf|), ps)
         == Done(Window(EncodingAll(ps).value, |buf|, |buf|))
  {
    EncodedSizeSumExact(ps);
    var w := Window(buf, 0, |buf|);
    PutAllMeaning(w, ps);
    var enc := EncodingAll(ps).value;
    assert Write(w, enc).bytes == enc;
  }

  /** A string of 65536 characters: the shortest one AMF0 writes as a long string. */
  function LongString(): (s: AsciiString)
    ensures |s| == Amf0.MAX_SHORT_STRING + 1
  {
    seq(Amf0.MAX_SHORT_STRING + 1, _ => 'a')
  }

  /**
   * As written, `getParameterSize` counts such a string as 3 + length, two
   * bytes short of its long-string encoding, so a buffer of `minBufferSize`
   * bytes cannot hold it and the encoder runs out of room at its first byte.
   */
  lemma LongStringUndercount(buf: seq<byte>)
    requires |buf| == SizeSum([Str(LongString())]).value
    ensures SizeSum([Str(LongString())]) == Ok(65539)
    ensures EncodedSizeSum([Str(LongString())]) == Ok(65541)
    ensures PutAll(Window(buf, 0, |buf|), [Str(LongString())]) == Failed(OutOfBounds(0), 0)
  {
    var p := Str(LongString());
    assert [p][1..] == [];
    assert Amf0.ScalarSize(Amf0.Str(LongString())) == 65541;
  }
}

=== FILE: amf_scenarios.dfy ===
/**
 * The encoder's documented behaviour on concrete parameters, driven through
 * the classes as a caller would drive them.
 */
module AmfScenarios {
  import opened Bytes
  import opened Wrappers
  import Amf0
  import opened AmfModel
  import opened AmfEncoding

  /** `minBufferSize` after adding an Int, then a String. */
  method BufferSizeScenario() {
    var encoder := new AmfEncoder();
    encoder.Add(Int(4));
    assert encoder.parameters == [Int(4)];
    assert SizeSum([Int(4)][1..]) == Ok(0);
    assert encoder.MinBufferSize() == Ok(4);
    encoder.Add(Str("Test"));
    assert encoder.parameters == [Int(4), Str("Test")];
    assert SizeSum([Int(4), Str("Test")][1..][1..]) == Ok(0);
    assert SizeSum([Int(4), Str("Test")][1..]) == Ok(3 + 4);
    assert encoder.MinBufferSize() == Ok(4 + 3 + 4);
  }

  /** A Boolean comes out as its marker and one byte. */
  method BooleanScenario() {
    var encoder := new AmfEncoder();
    encoder.Add(Bool(true));
    assert encoder.parameters == [Bool(true)];
    assert EncodingAll([Bool(true)][1..]) == Ok([]);
    assert Encoding(Bool(true)) == Ok([Amf0.BOOLEAN_MARKER, 1]);
    assert AllShortStrings([Bool(true)][1..]);
    var r := encoder.Encode();
    assert r.value.data[..] == [Amf0.BOOLEAN_MARKER, 1];
  }

  /** An Int comes out as four raw big-endian bytes. */
  method IntScenario() {
    var encoder := new AmfEncoder();
    encoder.Add(Int(4));
    assert encoder.parameters == [Int(4)];
    assert EncodingAll([Int(4)][1..]) == Ok([]);
    assert Amf0.Int32Bytes(4) == [0, 0, 0, 4];
    assert AllShortStrings([Int(4)][1..]);
    var r := encoder.Encode();
    assert r.value.data[..] == [0, 0, 0, 4];
  }

  /** A named Boolean comes out as the 16-bit name length, the name, then the Boolean. */
  method NamedBooleanScenario() {
    var encoder := new AmfEncoder();
    encoder.AddNamed("ok", Bool(true));
    var p := Named("ok", Bool(true));
    assert encoder.parameters == [p];
    assert BigEndian(2, 2) == [0, 2];
    assert AsciiBytes("ok") == ['o' as int, 'k' as int];
    assert Amf0.PropertyBytes("ok", Amf0.Boolean(true)) == [0, 2, 'o' as int, 'k' as int, Amf0.BOOLEAN_MARKER, 1];
    assert Encoding(p) == Ok([0, 2, 'o' as int, 'k' as int, Amf0.BOOLEAN_MARKER, 1]);
    Single(p);
    var r := encoder.Encode();
    assert r.value.data[..] == [0, 2, 'o' as int, 'k' as int, Amf0.BOOLEAN_MARKER, 1];
  }

  /** An ECMA array holding one Int: header with the count, the Int, the footer. */
  method EcmaArrayScenario() {
    var ecma := new EcmaArray();
    ecma.Add(Int(4));
    var p := ecma.AsParameter();
    assert p == Ecma([Int(4)]);
    var encoder := new AmfEncoder();
    encoder.Add(p);
    assert encoder.parameters == [p];
    assert Amf0.Int32Bytes(4) == [0, 0, 0, 4];
    assert Amf0.Int32Bytes(1) == [0, 0, 0, 1];
    Single(Int(4));
    assert Encoding(p) == Ok([Amf0.ECMA_ARRAY_MARKER] + Amf0.Int32Bytes(1) + [0, 0, 0, 4] + Amf0.ObjectEnd());
    Single(p);
    var r := encoder.Encode();
    assert r.value.data[..] == [Amf0.ECMA_ARRAY_MARKER, 0, 0, 0, 1, 0, 0, 0, 4, 0, 0, Amf0.OBJECT_END_MARKER];
  }

  lemma Single(p: Parameter)
    requires Encoding(p).Ok? && ShortStrings(p)
    ensures EncodingAll([p]) == Ok(Encoding(p).value) && AllShortStrings([p])
  {
    assert [p][0] == p && [p][1..] == [];
    assert Encoding(p).value + [] == Encoding(p).value;
  }

  /** `encode(buffer)` refuses a heap buffer and leaves it as it was. */
  method HeapBufferScenario() {
    var encoder := new AmfEncoder();
    encoder.Add(Int(4));
    var buffer := new ByteBuffer.Allocate(4, false);
    var err := encoder.EncodeInto(buffer);
    assert err == Some(NotDirect);
    assert buffer.position == 0;
  }

  /** A `Short` is sized but has no encoder. */
  method ShortScenario() {
    var encoder := new AmfEncoder();
    encoder.Add(Short(1));
    assert encoder.parameters == [Short(1)];
    assert SizeSum([Short(1)][1..]) == Ok(0);
    assert encoder.MinBufferSize() == Ok(2);
    var r := encoder.Encode();
    assert r.Err?;
  }
}

=== FILE: bytes.dfy ===
/**
 * Byte-level vocabulary shared by the encoder, the packet marshaller and the
 * session glue: octets, the JVM's 32-bit `Int`, big-endian integers of a
 * fixed width and the ASCII strings for which a Kotlin `String.length` and the
 * C `strlen` of its modified UTF-8 form agree.
 */
module Bytes {

  /** One octet of a buffer. */
  type byte = x: int | 0 <= x < 0x100

  /** A JVM `Int` / JNI `jint`. */
  type int32 = x: int | -0x8000_0000 <= x < 0x8000_0000

  /** An unsigned 32-bit C integer (`uint32_t`). */
  type uint32 = x: int | 0 <= x < 0x1_0000_0000

  /** A 64-bit pattern, the bits of an IEEE-754 double taken as an opaque value. */
  type uint64 = x: int | 0 <= x < 0x1_0000_0000_0000_0000

  /** 256 to the power `n`: the number of distinct values of `n` bytes. */
  function Pow256(n: nat): (r: nat)
    ensures r >= 1
    ensures n >= 1 ==> r >= 256
  {
    if n == 0 then 1 else 256 * Pow256(n - 1)
  }

  /**
   * The low `width` bytes of `v`, most significant first. Higher bytes are
   * dropped, as a C cast to a narrower integer drops them; a negative `v` is
   * written in two's complement.
   */
  function BigEndian(v: int, width: nat): (r: seq<byte>)
    ensures |r| == width
    decreases width
  {
    if width == 0 then [] else BigEndian(v / 256, width - 1) + [v % 256]
  }

  /** The unsigned value of a big-endian byte string. */
  function FromBigEndian(s: seq<byte>): (r: nat)
    ensures r < Pow256(|s|)
  {
    if s == [] then 0
    else
      var high := FromBigEndian(s[..|s| - 1]);
      assert high + 1 <= Pow256(|s| - 1);
      assert high * 256 + 256 <= Pow256(|s| - 1) * 256;
      high * 256 + s[|s| - 1]
  }

  /** Reading back what `BigEndian` wrote gives the value, when it fits in `width` bytes. */
  lemma {:induction false} BigEndianRoundTrip(v: int, width: nat)
    requires 0 <= v < Pow256(width)
    ensures FromBigEndian(BigEndian(v, width)) == v
  {
    if width > 0 {
      var q := v / 256;
      assert q * 256 <= v;
      assert q < Pow256(width - 1);
      BigEndianRoundTrip(q, width - 1);
      var s := BigEndian(v, width);
      assert s[..|s| - 1] == BigEndian(q, width - 1);
      assert s[|s| - 1] == v % 256;
    }
  }

  /** Every byte string is the big-endian form of its own value: the decoder loses nothing. */
  lemma {:induction false} FromBigEndianRoundTrip(s: seq<byte>)
    ensures BigEndian(FromBigEndian(s), |s|) == s
  {
    if s != [] {
      var pre, last := s[..|s| - 1], s[|s| - 1];
      var v := FromBigEndian(s);
      assert v == FromBigEndian(pre) * 256 + last;
      assert v / 256 == FromBigEndian(pre);
      assert v % 256 == last;
      FromBigEndianRoundTrip(pre);
      assert s == pre + [last];
    }
  }

  /** Adding 256^width does not change the low `width` bytes. */
  lemma {:induction false} BigEndianPeriodic(v: int, width: nat)
    ensures BigEndian(v + Pow256(width), width) == BigEndian(v, width)
    decreases width
  {
    if width > 0 {
      var p := Pow256(width - 1);
      assert v + Pow256(width) == v + 256 * p;
      assert (v + 256 * p) / 256 == v / 256 + p;
      assert (v + 256 * p) % 256 == v % 256;
      BigEndianPeriodic(v / 256, width - 1);
    }
  }

  /** The JVM `Int` a 32-bit two's-complement pattern stands for. */
  function SignedOf32(u: uint32): (r: int32)
    ensures r == u || r == u - 0x1_0000_0000
    ensures (r < 0) == (u >= 0x8000_0000)
  {
    if u < 0x8000_0000 then u else u - 0x1_0000_0000
  }

  /** A 32-bit `Int` written as four big-endian bytes reads back, through the signed view, as itself. */
  lemma Int32RoundTrip(v: int32)
    ensures SignedOf32(FromBigEndian(BigEndian(v, 4))) == v
  {
    assert Pow256(4) == 0x1_0000_0000 by {
      assert Pow256(1) == 256;
      assert Pow256(2) == 0x1_0000;
      assert Pow256(3) == 0x100_0000;
    }
    if v < 0 {
      BigEndianPeriodic(v, 4);
      BigEndianRoundTrip(v + 0x1_0000_0000, 4);
    } else {
      BigEndianRoundTrip(v, 4);
    }
  }

  /** ASCII without NUL: one byte per character both in a JVM string and in its modified UTF-8 form. */
  predicate IsAscii(s: string) {
    forall i | 0 <= i < |s| :: 0 < s[i] as int < 0x80
  }

  type AsciiString = s: string | IsAscii(s)

  /** The bytes `GetStringUTFChars` yields for an ASCII string. */
  function AsciiBytes(s: AsciiString): (r: seq<byte>)
    ensures |r| == |s|
    ensures forall i | 0 <= i < |s| :: r[i] == s[i] as int
  {
    seq(|s|, i requires 0 <= i < |s| => s[i] as int)
  }

  predicate IsAsciiBytes(b: seq<byte>) {
    forall i | 0 <= i < |b| :: 0 < b[i] < 0x80
  }

  /** The string a run of ASCII bytes spells. */
  function AsciiOf(b: seq<byte>): (r: AsciiString)
    requires IsAsciiBytes(b)
    ensures |r| == |b|
    ensures forall i | 0 <= i < |b| :: r[i] as int == b[i]
  {
    seq(|b|, i requires 0 <= i < |b| => b[i] as char)
  }

  /** ASCII strings and their bytes convert into each other without loss. */
  lemma AsciiRoundTrip(s: AsciiString)
    ensures IsAsciiBytes(AsciiBytes(s)) && AsciiOf(AsciiBytes(s)) == s
  {
  }
}

=== FILE: glue.dfy ===
/**
 * The JNI layer between the managed `Rtmp` session and librtmp: one method
 * per native of the session, acting on the native `RTMP` context. Every
 * librtmp call's result is a parameter; the calls a native makes are
 * recorded, in order, in the context's `calls`.
 */
module Glue {
  import opened Bytes
  import opened Wrappers
  import opened Packets

  /** librtmp's boolean results. */
  const FALSE: int := 0
  const TRUE: int := 1

  /** The status most natives hand back: -1 when librtmp reports FALSE, otherwise 0. */
  function StatusOf(res: int): (status: int)
    ensures status == -1 || status == 0
    ensures status == -1 <==> res == FALSE
  {
    if res == FALSE then -1 else 0
  }

  // ---------------------------------------------------------------------------
  // Logging: librtmp's levels onto Android's priorities

  /** librtmp's `RTMP_LogLevel`, from the most to the least severe. */
  const LOG_CRIT: int := 0
  const LOG_ERROR: int := 1
  const LOG_WARNING: int := 2
  const LOG_INFO: int := 3
  const LOG_DEBUG: int := 4
  const LOG_DEBUG2: int := 5
  const LOG_ALL: int := 6

  /** Android's log priorities, from the least to the most severe. */
  const ANDROID_UNKNOWN: int := 0
  const ANDROID_VERBOSE: int := 2
  const ANDROID_DEBUG: int := 3
  const ANDROID_INFO: int := 4
  const ANDROID_WARN: int := 5
  const ANDROID_ERROR: int := 6
  const ANDROID_FATAL: int := 7

  predicate KnownLevel(level: int) {
    LOG_CRIT <= level <= LOG_ALL
  }

  /** The priority `rtmp_log_cb` prints a librtmp message at. */
  function PriorityOf(level: int): int {
    if level == LOG_CRIT then ANDROID_FATAL
    else if level == LOG_ERROR then ANDROID_ERROR
    else if level == LOG_WARNING then ANDROID_WARN
    else if level == LOG_INFO then ANDROID_INFO
    else if level == LOG_DEBUG then ANDROID_DEBUG
    else if level == LOG_DEBUG2 || level == LOG_ALL then ANDROID_VERBOSE
    else ANDROID_UNKNOWN
  }

  /** A line `rtmp_log_cb` prints: librtmp's message, or its own complaint about the level. */
  datatype LogText = Message | UnknownLevel(level: int)
  datatype LogLine = LogLine(priority: int, text: LogText)

  /** The lines `rtmp_log_cb` prints for one librtmp message. */
  function LogLines(level: int): seq<LogLine> {
    (if KnownLevel(level) then [] else [LogLine(ANDROID_ERROR, UnknownLevel(level))])
    + [LogLine(PriorityOf(level), Message)]
  }

  /**
   * Every message is printed exactly once, last; an unknown level adds one
   * error line before it and the message goes out at the unknown priority.
   */
  lemma LogLinesMeaning(level: int)
    ensures |LogLines(level)| == (if KnownLevel(level) then 1 else 2)
    ensures LogLines(level)[|LogLines(level)| - 1].text == Message
    ensures forall i | 0 <= i < |LogLines(level)| - 1 :: LogLines(level)[i] == LogLine(ANDROID_ERROR, UnknownLevel(level))
    ensures LogLines(level)[|LogLines(level)| - 1].priority == ANDROID_UNKNOWN <==> !KnownLevel(level)
  {
  }

  /**
   * The mapping reverses librtmp's order: a more severe librtmp level never
   * gets a less severe Android priority, and every known level gets a real
   * priority, from verbose to fatal.
   */
  lemma {:induction false} PriorityMonotone(a: int, b: int)
    requires KnownLevel(a) && KnownLevel(b) && a <= b
    ensures PriorityOf(a) >= PriorityOf(b)
    ensures ANDROID_VERBOSE <= PriorityOf(b) <= PriorityOf(a) <= ANDROID_FATAL
  {
  }

  /** Two known levels share a priority only when both are the two most verbose ones. */
  lemma PriorityInjective(a: int, b: int)
    requires KnownLevel(a) && KnownLevel(b) && a != b
    ensures PriorityOf(a) == PriorityOf(b) <==> {a, b} == {LOG_DEBUG2, LOG_ALL}
  {
    if {a, b} == {LOG_DEBUG2, LOG_ALL} {
      assert a in {LOG_DEBUG2, LOG_ALL} && b in {LOG_DEBUG2, LOG_ALL};
    }
  }

  // ---------------------------------------------------------------------------
  // The bounds check of `nativeRead`

  /** The guard `nativeRead` puts before `RTMP_Read`, as written: only the end of the window is checked. */
  predicate ReadGuardAsWritten(length: int, offset: int, size: int) {
    length >= offset + size
  }

  /** The window `[offset, offset + size)` lies inside an array of `length` bytes. */
  predicate ReadGuard(length: int, offset: int, size: int) {
    0 <= offset && 0 <= size && offset + size <= length
  }

  /** Byte `i` of an array of `length` bytes exists. */
  predicate InArray(length: int, i: int) {
    0 <= i < length
  }

  /** The as-written guard lets a negative offset through, so `RTMP_Read` writes before the array. */
  lemma ReadGuardAdmitsNegativeOffset()
    ensures ReadGuardAsWritten(10, -1, 1)
    ensures !ReadGuard(10, -1, 1)
    ensures !InArray(10, -1)
  {
  }

  /** Every byte of a window the guard accepts is a byte of the array, and every such window is accepted. */
  lemma ReadGuardMeaning(length: int, offset: int, size: int)
    requires 0 <= size
    ensures ReadGuard(length, offset, size) ==> forall i | offset <= i < offset + size :: InArray(length, i)
    ensures 0 < size && (forall i | offset <= i < offset + size :: InArray(length, i)) ==> ReadGuard(length, offset, size)
  {
    if 0 < size && forall i | offset <= i < offset + size :: InArray(length, i) {
      assert InArray(length, offset);
      assert InArray(length, offset + size - 1);
    }
  }

  /** The guards differ only on negative offsets or sizes. */
  lemma ReadGuardsAgree(length: int, offset: int, size: int)
    requires 0 <= offset && 0 <= size
    ensures ReadGuardAsWritten(length, offset, size) <==> ReadGuard(length, offset, size)
  {
  }

  // ---------------------------------------------------------------------------
  // The native RTMP context

  /** The librtmp calls a native makes. */
  datatype LibCall =
    | SetupURL(url: string)
    | EnableWrite
    | Connect
    | ConnectStream
    | DeleteStream
    | IsConnected
    | Pause(paused: bool)
    | Write(offset: int, size: int)
    | Read(offset: int, size: int)
    | SendPacket(packet: NativePacket)
    | SendNullPacket
    | ReadPacket
    | Close
    | Free
    | Serve(fd: int32)

  /** librtmp's `RTMP` context: the fields the natives set, and the librtmp calls made on it. */
  class RtmpContext {
    /** `Link.timeout`. */
    var timeout: int32
    /** `m_sb.sb_socket`. */
    var socket: int32
    /** `RTMP_Free` has released the context. */
    var freed: bool
    ghost var calls: seq<LibCall>

    /** `nativeAlloc` once `RTMP_Alloc` succeeded: `RTMP_Init` leaves librtmp's defaults. */
    constructor Alloc(defaultTimeout: int32, defaultSocket: int32)
      ensures timeout == defaultTimeout && socket == defaultSocket && !freed && calls == []
    {
      timeout := defaultTimeout;
      socket := defaultSocket;
      freed := false;
      calls := [];
    }

    /**
     * One librtmp call on the context, recorded in the trace. librtmp may
     * rewrite `Link.timeout` (`RTMP_SetupURL` applies a `timeout=` option of
     * the URL) and `m_sb.sb_socket` (`RTMP_Connect` stores the socket it
     * opens, and a failed read or write closes it), so nothing is promised
     * about either field afterwards.
     */
    method Call(c: LibCall)
      requires !freed
      modifies this
      ensures calls == old(calls) + [c] && !freed
    {
      calls := calls + [c];
    }

    /** `nativeSetupURL`. */
    method NativeSetupURL(url: string, res: int) returns (status: int)
      requires !freed
      modifies this
      ensures status == StatusOf(res)
      ensures calls == old(calls) + [SetupURL(url)]
      ensures !freed
    {
      Call(SetupURL(url));
      if res == FALSE {
        return -1;
      }
      return 0;
    }

    /** `nativeConnect`. */
    method NativeConnect(res: int) returns (status: int)
      requires !freed
      modifies this
      ensures status == StatusOf(res)
      ensures calls == old(calls) + [Connect]
      ensures !freed
    {
      Call(Connect);
      if res == FALSE {
        return -1;
      }
      return 0;
    }

    /** `nativeConnectStream`. */
    method NativeConnectStream(res: int) returns (status: int)
      requires !freed
      modifies this
      ensures status == StatusOf(res)
      ensures calls == old(calls) + [ConnectStream]
      ensures !freed
    {
      Call(ConnectStream);
      if res == FALSE {
        return -1;
      }
      return 0;
    }

    /** `nativeDeleteStream`: no result. */
    method NativeDeleteStream()
      requires !freed
      modifies this
      ensures calls == old(calls) + [DeleteStream]
      ensures !freed
    {
      Call(DeleteStream);
    }

    /** `nativeEnableWrite`: no result. */
    method NativeEnableWrite()
      requires !freed
      modifies this
      ensures calls == old(calls) + [EnableWrite]
      ensures !freed
    {
      Call(EnableWrite);
    }

    /** `nativeIsConnected`: librtmp's answer as a boolean. */
    method NativeIsConnected(res: int) returns (connected: bool)
      requires !freed
      modifies this
      ensures connected <==> res != FALSE
      ensures calls == old(calls) + [IsConnected]
      ensures !freed
    {
      Call(IsConnected);
      connected := res != 0;
    }

    /** `nativeSetTimeout`: no result. */
    method NativeSetTimeout(t: int32)
      requires !freed
      modifies this
      ensures timeout == t
      ensures calls == old(calls) && socket == old(socket) && !freed
    {
      timeout := t;
    }

    /** `nativeGetTimeout`. */
    method NativeGetTimeout() returns (t: int32)
      requires !freed
      ensures t == timeout
    {
      t := timeout;
    }

    /** `nativePause` as written: librtmp's TRUE on success is handed back unchanged. */
    method NativePauseAsWritten(res: int) returns (status: int)
      requires !freed
      modifies this
      ensures status == res
      ensures calls == old(calls) + [Pause(true)]
      ensures !freed
    {
      Call(Pause(true));
      status := res;
    }

    /** `nativePause`, reporting like the other natives: 0 unless librtmp reports FALSE. */
    method NativePause(res: int) returns (status: int)
      requires !freed
      modifies this
      ensures status == StatusOf(res)
      ensures calls == old(calls) + [Pause(true)]
      ensures !freed
    {
      Call(Pause(true));
      status := StatusOf(res);
    }

    /** `nativeResume` as written: like `NativePauseAsWritten`, librtmp's TRUE is handed back unchanged. */
    method NativeResumeAsWritten(res: int) returns (status: int)
      requires !freed
      modifies this
      ensures status == res
      ensures calls == old(calls) + [Pause(false)]
      ensures !freed
    {
      Call(Pause(false));
      status := res;
    }

    /** `nativeResume`, reporting like `NativePause`. */
    method NativeResume(res: int) returns (status: int)
      requires !freed
      modifies this
      ensures status == StatusOf(res)
      ensures calls == old(calls) + [Pause(false)]
      ensures !freed
    {
      Call(Pause(false));
      status := StatusOf(res);
    }

    /** Both `nativeWrite`s: `RTMP_Write` from `offset`, its count handed back unchanged. */
    method NativeWrite(offset: int, size: int, res: int32) returns (count: int32)
      requires !freed
      modifies this
      ensures count == res
      ensures calls == old(calls) + [Write(offset, size)]
      ensures !freed
    {
      Call(Write(offset, size));
      count := res;
    }

    /**
     * `nativeRead`: `RTMP_Read` into the window whenever its end is inside the
     * array, even when the offset or the size is negative; otherwise -1 and
     * librtmp is not called.
     */
    method NativeRead(length: int, offset: int, size: int, res: int32) returns (count: int32)
      requires !freed
      modifies this
      ensures ReadGuardAsWritten(length, offset, size) ==> count == res && calls == old(calls) + [Read(offset, size)]
      ensures !ReadGuardAsWritten(length, offset, size) ==> count == -1 && calls == old(calls)
      ensures !freed
    {
      count := -1;
      if length >= offset + size {
        Call(Read(offset, size));
        count := res;
      }
    }

    /**
     * `nativeRead` with the whole window checked: `RTMP_Read` only reaches
     * bytes of the array, and a window outside it gives -1 without a call.
     */
    method NativeReadChecked(length: int, offset: int, size: int, res: int32) returns (count: int32)
      requires !freed
      modifies this
      ensures ReadGuard(length, offset, size) ==> count == res && calls == old(calls) + [Read(offset, size)]
      ensures !ReadGuard(length, offset, size) ==> count == -1 && calls == old(calls)
      ensures !freed
    {
      count := -1;
      if ReadGuard(length, offset, size) {
        Call(Read(offset, size));
        count := res;
      }
    }

    /**
     * `nativeWritePacket` as written: the record is sent even when it could
     * not be built, and it is freed only when sending succeeds.
     */
    method NativeWritePacketAsWritten(mem: NativeMemory, p: ManagedPacket, refl: Reflection, mallocOk: bool,
                                      garbage: NativePacket, res: int)
      returns (status: int, ghost rec: PacketRecord?)
      requires !freed
      modifies this, mem
      ensures status == StatusOf(res)
      ensures rec == null <==> !(refl.Complete() && mallocOk)
      ensures rec == null ==> calls == old(calls) + [SendNullPacket] && mem.records == old(mem.records)
      ensures rec != null ==> calls == old(calls) + [SendPacket(ToNative(p))]
      ensures rec != null && status == 0 ==> mem.records == old(mem.records)
      ensures rec != null && status != 0 ==> fresh(rec) && mem.records == old(mem.records) + {rec}
      ensures mem.classRefs == old(mem.classRefs)
      ensures !freed
    {
      var record := GetNative(mem, p, refl, mallocOk, garbage);
      rec := record;
      if record == null {
        Call(SendNullPacket);
      } else {
        Call(SendPacket(record.Value()));
      }
      if res == FALSE {
        return -1, rec;
      }
      if record != null {
        mem.Free(record);
      }
      return 0, rec;
    }

    /**
     * `nativeWritePacket`, releasing what it allocates: a record that could
     * not be built is reported as a failure without calling librtmp, and a
     * built one is freed whatever the send returns.
     */
    method NativeWritePacket(mem: NativeMemory, p: ManagedPacket, refl: Reflection, mallocOk: bool,
                             garbage: NativePacket, res: int)
      returns (status: int)
      requires !freed
      modifies this, mem
      ensures refl.Complete() && mallocOk ==> status == StatusOf(res) && calls == old(calls) + [SendPacket(ToNative(p))]
      ensures !(refl.Complete() && mallocOk) ==> status == -1 && calls == old(calls)
      ensures mem.records == old(mem.records) && mem.classRefs == old(mem.classRefs)
      ensures !freed
    {
      var record := GetNative(mem, p, refl, mallocOk, garbage);
      if record == null {
        return -1;
      }
      Call(SendPacket(record.Value()));
      mem.Free(record);
      status := StatusOf(res);
    }

    /**
     * `nativeReadPacket`: null when librtmp reports FALSE or the managed
     * packet cannot be built, otherwise the packet librtmp filled in.
     */
    method NativeReadPacket(mem: NativeMemory, res: int, received: NativePacket, classFound: bool, constructorFound: bool, objectOk: bool)
      returns (p: Option<ManagedPacket>)
      requires !freed
      modifies this, mem
      ensures p.Some? <==> res != FALSE && classFound && constructorFound && objectOk
      ensures p.Some? ==> p.value == ToManaged(received)
      ensures calls == old(calls) + [ReadPacket]
      ensures mem.records == old(mem.records)
      ensures !freed
    {
      Call(ReadPacket);
      if res == FALSE {
        return None;
      }
      p := GetJava(mem, received, classFound, constructorFound, objectOk);
    }

    /** `nativeClose`: closes, then frees the context. */
    method NativeClose()
      requires !freed
      modifies this
      ensures freed
      ensures calls == old(calls) + [Close, Free]
    {
      calls := calls + [Close, Free];
      freed := true;
    }

    /** `nativeServe`: the context takes the socket, and the handshake runs on it. */
    method NativeServe(fd: int32, res: int) returns (status: int)
      requires !freed
      modifies this
      ensures status == StatusOf(res)
      ensures calls == old(calls) + [Serve(fd)]
      ensures !freed
    {
      socket := fd;
      Call(Serve(socket));
      if res == FALSE {
        return -1;
      } else {
        return 0;
      }
    }
  }

  /**
   * `nativePause` and `nativeResume` as written turn librtmp's success into a
   * non-zero status and its failure into 0; the corrected ones do not.
   */
  method PauseScenario() {
    var context := new RtmpContext.Alloc(30, -1);
    var paused := context.NativePauseAsWritten(TRUE);
    var resumed := context.NativeResumeAsWritten(TRUE);
    assert paused != 0 && resumed != 0;
    var failed := context.NativeResumeAsWritten(FALSE);
    assert failed == 0;
    var status := context.NativePause(TRUE);
    var status2 := context.NativeResume(TRUE);
    var status3 := context.NativeResume(FALSE);
    assert status == 0 && status2 == 0 && status3 == -1;
  }

  /** `nativeRead` as written hands librtmp a window starting before the array; the checked one refuses it. */
  method ReadScenario() {
    var context := new RtmpContext.Alloc(30, -1);
    var count := context.NativeRead(10, -1, 1, 1);
    assert count == 1 && context.calls == [Read(-1, 1)];
    var checked := context.NativeReadChecked(10, -1, 1, 1);
    assert checked == -1 && context.calls == [Read(-1, 1)];
  }

  /**
   * `nativeWritePacket` as written leaves the record allocated when sending
   * fails, and hands librtmp a null record when it cannot build one.
   */
  method WritePacketScenario() {
    var context := new RtmpContext.Alloc(30, -1);
    var mem := new NativeMemory();
    var p := ManagedPacket(3, 0, 0x14, 0, DirectBuffer(0x1000, 16));
    var garbage := NativePacket(0, 0, 0, 0, 0, 0, 0, 0);
    var status, rec := context.NativeWritePacketAsWritten(mem, p, Reflection(true, {}), true, garbage, FALSE);
    assert status == -1 && rec != null && rec in mem.records;
    var status2, rec2 := context.NativeWritePacketAsWritten(mem, p, Reflection(true, {Buffer}), true, garbage, TRUE);
    assert status2 == 0 && context.calls[|context.calls| - 1] == SendNullPacket;

    var fixedContext := new RtmpContext.Alloc(30, -1);
    var fixedMem := new NativeMemory();
    var status3 := fixedContext.NativeWritePacket(fixedMem, p, Reflection(true, {}), true, garbage, FALSE);
    assert status3 == -1 && fixedMem.records == {};
    var status4 := fixedContext.NativeWritePacket(fixedMem, p, Reflection(true, {Buffer}), true, garbage, TRUE);
    assert status4 == -1 && fixedContext.calls == [SendPacket(ToNative(p))];
  }
}

=== FILE: packet.dfy ===
/**
 * Marshalling between the managed `RtmpPacket` and librtmp's C `RTMPPacket`
 * record: `getNative` allocates a record and fills it from the managed
 * object, `getJava` builds a managed packet from a record. JNI reflection
 * outcomes (a class or member that is not found) and `malloc` failure are
 * parameters.
 */
module Packets {
  import opened Bytes
  import opened Wrappers

  /**
   * The packet's `ByteBuffer` as JNI sees it: a direct buffer has the address
   * of its storage and its capacity; a heap buffer has neither.
   */
  datatype PacketBuffer = DirectBuffer(address: nat, capacity: nat) | HeapBuffer

  /** `GetDirectBufferAddress`: NULL (0) for a heap buffer. */
  function BufferAddress(b: PacketBuffer): (r: nat)
    ensures b.HeapBuffer? ==> r == 0
  {
    if b.DirectBuffer? then b.address else 0
  }

  /** `GetDirectBufferCapacity`: -1 for a heap buffer. */
  function BufferCapacity(b: PacketBuffer): (r: int)
    ensures r < 0 <==> b.HeapBuffer?
  {
    if b.DirectBuffer? then b.capacity else -1
  }

  /** The managed `RtmpPacket`. */
  datatype ManagedPacket = ManagedPacket(
    channel: int32,
    headerType: int32,
    packetType: int32,
    timestamp: int32,
    buffer: PacketBuffer)

  /**
   * The fields of librtmp's `RTMPPacket` the marshaller touches, with their
   * C widths: the two type fields and the absolute-timestamp flag are
   * `uint8_t`, the timestamp and body size `uint32_t`.
   */
  datatype NativePacket = NativePacket(
    headerType: byte,
    packetType: byte,
    hasAbsTimestamp: byte,
    channel: int32,
    timestamp: uint32,
    infoField2: int32,
    bodySize: uint32,
    body: nat)

  /** A C conversion of an `int` to `uint8_t`: the value modulo 256. */
  function ToUint8(v: int32): (r: byte)
    ensures 0 <= v < 0x100 ==> r == v
    ensures (r - v) % 0x100 == 0
  {
    v % 0x100
  }

  /** A C conversion of a `jlong` capacity to `uint32_t`: the value modulo 2^32, so -1 becomes 0xFFFFFFFF. */
  function ToUint32(v: int): (r: uint32)
    ensures 0 <= v < 0x1_0000_0000 ==> r == v
    ensures (r - v) % 0x1_0000_0000 == 0
  {
    v % 0x1_0000_0000
  }

  /** The record `getNative` fills in for a managed packet. */
  function ToNative(p: ManagedPacket): NativePacket {
    NativePacket(
      ToUint8(p.headerType), ToUint8(p.packetType), 0,
      p.channel, 0, 0,
      ToUint32(BufferCapacity(p.buffer)), BufferAddress(p.buffer))
  }

  /** The managed packet `getJava` builds from a record. */
  function ToManaged(n: NativePacket): ManagedPacket {
    ManagedPacket(
      n.channel, n.headerType, n.packetType, SignedOf32(n.timestamp),
      DirectBuffer(n.body, n.bodySize))
  }

  /**
   * Managed to native and back keeps the channel, both types (when they fit
   * a byte) and a direct body, which is the same memory with the buffer's
   * full capacity; the timestamp always comes back as 0.
   */
  lemma ManagedRoundTrip(p: ManagedPacket)
    requires 0 <= p.headerType < 0x100 && 0 <= p.packetType < 0x100
    requires p.buffer.DirectBuffer? && p.buffer.capacity < 0x1_0000_0000
    ensures ToManaged(ToNative(p)) == p.(timestamp := 0)
  {
  }

  /**
   * A heap buffer gives the record a NULL body of size 0xFFFFFFFF, which
   * comes back as a direct buffer at address 0: such a packet does not
   * survive the round trip.
   */
  lemma HeapBufferRecord(p: ManagedPacket)
    requires p.buffer.HeapBuffer?
    ensures ToNative(p).body == 0 && ToNative(p).bodySize == 0xFFFF_FFFF
    ensures ToManaged(ToNative(p)).buffer == DirectBuffer(0, 0xFFFF_FFFF) != p.buffer
  {
  }

  /** A timestamp the managed side sets never reaches the record. */
  lemma TimestampIgnored(p: ManagedPacket, t: int32)
    ensures ToNative(p.(timestamp := t)) == ToNative(p)
    ensures ToNative(p).timestamp == 0 && ToNative(p).infoField2 == 0 && ToNative(p).hasAbsTimestamp == 0
  {
  }

  /** Native to managed and back restores the record, except that the three timing fields are zeroed. */
  lemma NativeRoundTrip(n: NativePacket)
    ensures ToNative(ToManaged(n)) == n.(timestamp := 0, infoField2 := 0, hasAbsTimestamp := 0)
  {
  }

  /** A `malloc`ed `RTMPPacket`, assigned field by field. */
  class PacketRecord {
    var headerType: byte
    var packetType: byte
    var hasAbsTimestamp: byte
    var channel: int32
    var timestamp: uint32
    var infoField2: int32
    var bodySize: uint32
    var body: nat

    function Value(): NativePacket
      reads this
    {
      NativePacket(headerType, packetType, hasAbsTimestamp, channel, timestamp, infoField2, bodySize, body)
    }

    /** `malloc`: the record holds whatever the memory held. */
    constructor (garbage: NativePacket)
      ensures Value() == garbage
    {
      headerType, packetType, hasAbsTimestamp := garbage.headerType, garbage.packetType, garbage.hasAbsTimestamp;
      channel, timestamp, infoField2 := garbage.channel, garbage.timestamp, garbage.infoField2;
      bodySize, body := garbage.bodySize, garbage.body;
    }
  }

  /** The native memory and JNI references the marshaller acquires and releases. */
  class NativeMemory {
    /** Records allocated and not yet freed. */
    var records: set<PacketRecord>
    /** Local class references currently held. */
    var classRefs: nat

    constructor ()
      ensures records == {} && classRefs == 0
    {
      records := {};
      classRefs := 0;
    }

    /** `free`. */
    method Free(rec: PacketRecord)
      modifies this
      ensures records == old(records) - {rec} && classRefs == old(classRefs)
    {
      records := records - {rec};
    }
  }

  /** The five fields `getNative` looks up, in lookup order. */
  datatype PacketField = Channel | HeaderType | PacketType | Timestamp | Buffer

  /** Every field is in the lookup order; serves `GetNative`'s field-lookup loop. */
  lemma LookupOrderComplete(f: PacketField)
    ensures f in [Channel, HeaderType, PacketType, Timestamp, Buffer]
  {
    match f
    case Channel =>
    case HeaderType =>
    case PacketType =>
    case Timestamp =>
    case Buffer =>
  }

  /** What JNI reflection finds on the managed packet's class. */
  datatype Reflection = Reflection(classFound: bool, missing: set<PacketField>) {
    predicate Complete() {
      classFound && missing == {}
    }
  }

  /**
   * `RtmpPacket::getNative`: null when the class or any field is not found
   * or `malloc` fails, with no record left allocated; otherwise a fresh
   * record holding `ToNative(p)`. The class reference is released on every
   * path.
   */
  method GetNative(mem: NativeMemory, p: ManagedPacket, refl: Reflection, mallocOk: bool, garbage: NativePacket)
    returns (rec: PacketRecord?)
    modifies mem
    ensures mem.classRefs == old(mem.classRefs)
    ensures rec == null <==> !(refl.Complete() && mallocOk)
    ensures rec == null ==> mem.records == old(mem.records)
    ensures rec != null ==> fresh(rec) && mem.records == old(mem.records) + {rec}
    ensures rec != null ==> rec.Value() == ToNative(p)
  {
    if !refl.classFound {
      return null;
    }
    mem.classRefs := mem.classRefs + 1;
    var fields := [Channel, HeaderType, PacketType, Timestamp, Buffer];
    for i := 0 to |fields|
      invariant mem.classRefs == old(mem.classRefs) + 1 && mem.records == old(mem.records)
      invariant forall j | 0 <= j < i :: fields[j] !in refl.missing
    {
      if fields[i] in refl.missing {
        mem.classRefs := mem.classRefs - 1;
        return null;
      }
    }
    assert refl.missing == {} by {
      forall f | f in refl.missing
        ensures false
      {
        LookupOrderComplete(f);
      }
    }
    if !mallocOk {
      mem.classRefs := mem.classRefs - 1;
      return null;
    }
    rec := new PacketRecord(garbage);
    mem.records := mem.records + {rec};
    rec.channel := p.channel;
    rec.headerType := ToUint8(p.headerType);
    rec.packetType := ToUint8(p.packetType);
    rec.timestamp := 0;
    rec.infoField2 := 0;
    rec.hasAbsTimestamp := 0;
    rec.body := BufferAddress(p.buffer);
    rec.bodySize := ToUint32(BufferCapacity(p.buffer));
    mem.classRefs := mem.classRefs - 1;
  }

  /**
   * `RtmpPacket::getJava`: null when the class or its constructor is not
   * found, or when `NewObject` answers null (`objectOk` false, an exception
   * such as OutOfMemoryError pending), otherwise `ToManaged(n)`. The class
   * reference is released when the constructor is missing and is otherwise
   * kept until the native call returns.
   */
  method GetJava(mem: NativeMemory, n: NativePacket, classFound: bool, constructorFound: bool, objectOk: bool)
    returns (p: Option<ManagedPacket>)
    modifies mem
    ensures p.Some? <==> classFound && constructorFound && objectOk
    ensures p.Some? ==> p.value == ToManaged(n)
    ensures mem.records == old(mem.records)
    ensures mem.classRefs == old(mem.classRefs) + (if classFound && constructorFound then 1 else 0)
  {
    if !classFound {
      return None;
    }
    mem.classRefs := mem.classRefs + 1;
    if !constructorFound {
      mem.classRefs := mem.classRefs - 1;
      return None;
    }
    if !objectOk {
      return None;
    }
    var buffer := DirectBuffer(n.body, n.bodySize);
    return Some(ManagedPacket(n.channel, n.headerType, n.packetType, SignedOf32(n.timestamp), buffer));
  }
}

=== FILE: rtmp.dfy ===
/**
 * The managed `Rtmp` session: each operation calls its native on the
 * session's `RTMP` context and turns the status into a result or an
 * exception. librtmp's results, and the results of natives that have no
 * body in the JNI layer, are parameters.
 */
module Session {
  import opened Bytes
  import opened Wrappers
  import opened Codecs
  import opened Packets
  import opened Glue
  import AmfEncoding

  /** The exceptions the session raises. */
  datatype RtmpError =
    | UnsupportedOperation
    | IllegalArgument
    | ConnectFailed
    | SocketError
    | SocketTimeout

  /** A request to the codec natives. */
  datatype CodecRequest = SetVideoCodec(mask: int) | SetExVideoCodec(value: Option<string>)

  /** How `read` and both `write`s report a byte count: negative is a connection error, zero a timeout. */
  function CountResult(n: int): (r: Result<int, RtmpError>)
    ensures r.Ok? <==> n > 0
    ensures r.Ok? ==> r.value == n
    ensures r == Err(SocketError) <==> n < 0
    ensures r == Err(SocketTimeout) <==> n == 0
  {
    if n < 0 then Err(SocketError)
    else if n == 0 then Err(SocketTimeout)
    else Ok(n)
  }

  // ---------------------------------------------------------------------------
  // Supported video codecs

  /**
   * How the `supportedVideoCodecs` setter sorts its list, keeping the list's
   * order: standard codecs, then extended ones, or the first type that is
   * neither.
   */
  function Partition(av1Available: bool, codecs: seq<string>): Result<(seq<string>, seq<string>), string> {
    if codecs == [] then Ok(([], []))
    else
      var parts :- Partition(av1Available, codecs[..|codecs| - 1]);
      var last := codecs[|codecs| - 1];
      if IsSupportedCodec(last) then Ok((parts.0 + [last], parts.1))
      else if IsSupportedExCodec(av1Available, last) then Ok((parts.0, parts.1 + [last]))
      else Err(last)
  }

  /** What the setter hands the two natives: the standard codecs' mask and the extended codecs' FourCC list. */
  function SettingsOf(av1Available: bool, codecs: seq<string>): Result<(int, Option<string>), string> {
    var parts :- Partition(av1Available, codecs);
    var mask :- MaskOf(parts.0);
    var tags :- FourCCsOf(av1Available, parts.1);
    Ok((mask as int, ExValueOf(parts.1, tags)))
  }

  /** The `supportedVideoCodecs` getter, given what the two natives report. */
  function ReportedCodecs(mask: int32, exValue: Option<string>, av1Available: bool): (r: Result<seq<string>, RtmpError>)
    ensures r.Err? <==> mask <= 0
    ensures r.Err? ==> r.error == UnsupportedOperation
    ensures r.Ok? ==> r.value == FlaggedIn(CODECS, mask as bv32) + ListedIn(ExCodecs(av1Available), ExVideoCodecs(exValue).FourCCList())
    ensures r.Ok? ==> forall mime :: (mime in r.value
        <==> (VideoCodecs(mask as bv32).HasCodec(mime) || ExVideoCodecs(exValue).HasCodec(av1Available, mime)))
  {
    if mask <= 0 then Err(UnsupportedOperation)
    else Ok(VideoCodecs(mask as bv32).SupportedCodecs() + ExVideoCodecs(exValue).SupportedCodecs(av1Available))
  }

  /** Once a prefix is rejected, the whole list is rejected with the same type. */
  lemma {:induction false} PartitionErrorPersists(av1Available: bool, codecs: seq<string>, k: nat)
    requires k <= |codecs| && Partition(av1Available, codecs[..k]).Err?
    ensures Partition(av1Available, codecs) == Partition(av1Available, codecs[..k])
    decreases |codecs| - k
  {
    if k < |codecs| {
      assert codecs[..k + 1][..k] == codecs[..k];
      PartitionErrorPersists(av1Available, codecs, k + 1);
    } else {
      assert codecs[..k] == codecs;
    }
  }

  /**
   * The setter accepts exactly the lists whose every type is a standard or an
   * extended codec; it splits such a list without losing or adding a type,
   * standard codecs on one side and extended ones on the other.
   */
  lemma {:induction false} PartitionMeaning(av1Available: bool, codecs: seq<string>)
    ensures Partition(av1Available, codecs).Ok?
        <==> forall c | c in codecs :: IsSupportedCodec(c) || IsSupportedExCodec(av1Available, c)
    ensures Partition(av1Available, codecs).Ok? ==>
      var parts := Partition(av1Available, codecs).value;
      multiset(parts.0) + multiset(parts.1) == multiset(codecs)
      && (forall c | c in parts.0 :: IsSupportedCodec(c))
      && (forall c | c in parts.1 :: !IsSupportedCodec(c) && IsSupportedExCodec(av1Available, c))
  {
    if codecs != [] {
      var prefix := codecs[..|codecs| - 1];
      var last := codecs[|codecs| - 1];
      assert codecs == prefix + [last];
      assert forall c :: c in codecs <==> c in prefix || c == last;
      PartitionMeaning(av1Available, prefix);
      if Partition(av1Available, prefix).Err? {
        assert Partition(av1Available, codecs).Err?;
        var c :| c in prefix && !(IsSupportedCodec(c) || IsSupportedExCodec(av1Available, c));
        assert c in codecs;
      }
    }
  }

  /** No MIME type is both a standard and an extended codec. */
  lemma StandardNotExtended(av1Available: bool, mime: string)
    requires IsSupportedCodec(mime)
    ensures !IsSupportedExCodec(av1Available, mime)
  {
    var i :| 0 <= i < |CODECS| && CODECS[i].0 == mime;
    assert mime == MIME_H263 || mime == MIME_AVC;
    assert MIME_H263[6] != MIME_HEVC[6] && MIME_H263[6] != MIME_AV1[6];
    assert forall k | 0 <= k < |ExCodecs(av1Available)| :: ExCodecs(av1Available)[k].0 != mime;
  }

  /** The mask of a list of standard codecs is one of four values, and zero only for the empty list. */
  lemma MaskRange(mimes: seq<string>)
    requires forall m | m in mimes :: IsSupportedCodec(m)
    ensures MaskOf(mimes).Ok?
    ensures var v := MaskOf(mimes).value as int; v == 0 || v == 4 || v == 0x80 || v == 0x84
    ensures MaskOf(mimes).value == 0 <==> mimes == []
  {
    MaskMeaning(mimes);
    var v := MaskOf(mimes).value;
    assert v & !(SUPPORT_VID_SORENSON | SUPPORT_VID_H264) == 0;
    assert v == 0 || v == 4 || v == 0x80 || v == 0x84;
    if mimes != [] {
      assert mimes[0] in mimes;
      var i :| 0 <= i < |CODECS| && CODECS[i].0 == mimes[0];
      assert MIME_H263 in mimes || MIME_AVC in mimes;
    }
  }

  /**
   * The setter sends something exactly when it accepts the list, and what it
   * sends never makes `fromMimeTypes` fail.
   */
  lemma SettingsMeaning(av1Available: bool, codecs: seq<string>)
    ensures SettingsOf(av1Available, codecs).Ok? <==> Partition(av1Available, codecs).Ok?
  {
    PartitionMeaning(av1Available, codecs);
    if Partition(av1Available, codecs).Ok? {
      var parts := Partition(av1Available, codecs).value;
      MaskMeaning(parts.0);
      FourCCsMeaning(av1Available, parts.1);
    }
  }

  /**
   * What the getter reports for the mask of some standard codecs and the
   * FourCC list of some extended codecs: an error for an empty mask, and
   * otherwise exactly the types of the two lists.
   */
  lemma ReportedFromLists(av1Available: bool, std: seq<string>, ex: seq<string>, mime: string)
    requires forall c | c in std :: IsSupportedCodec(c)
    requires forall c | c in ex :: IsSupportedExCodec(av1Available, c)
    ensures MaskOf(std).Ok? && FourCCsOf(av1Available, ex).Ok?
    ensures 0 <= MaskOf(std).value as int < 0x8000_0000
    ensures var r := ReportedCodecs(MaskOf(std).value as int, ExValueOf(ex, FourCCsOf(av1Available, ex).value), av1Available);
      (r.Err? <==> std == [])
      && (r.Ok? ==> (mime in r.value <==> mime in std || mime in ex))
  {
    MaskRange(std);
    MaskRoundTrip(std, mime);
    ExRoundTrip(av1Available, ex, mime);
    var mask := MaskOf(std).value;
    assert (mask as int) as bv32 == mask;
  }

  /**
   * Setting the supported codecs and reading them back through natives that
   * keep what they were given: the getter reports exactly the types of the
   * list, order and repetitions aside, as long as the list names a standard
   * codec; a list of extended codecs alone sends an empty mask, which the
   * getter rejects.
   */
  lemma CodecSettingsRoundTrip(av1Available: bool, codecs: seq<string>, mime: string)
    requires Partition(av1Available, codecs).Ok?
    ensures SettingsOf(av1Available, codecs).Ok?
    ensures var sent := SettingsOf(av1Available, codecs).value;
      0 <= sent.0 < 0x8000_0000
      && var r := ReportedCodecs(sent.0, sent.1, av1Available);
      (r.Err? <==> forall c | c in codecs :: !IsSupportedCodec(c))
      && (r.Ok? ==> (mime in r.value <==> mime in codecs))
  {
    SettingsMeaning(av1Available, codecs);
    PartitionMeaning(av1Available, codecs);
    var parts := Partition(av1Available, codecs).value;
    var std, ex := parts.0, parts.1;
    assert forall c :: c in codecs <==> c in std || c in ex by {
      forall c
        ensures c in codecs <==> c in std || c in ex
      {
        assert c in codecs <==> c in multiset(codecs);
        assert c in std <==> c in multiset(std);
        assert c in ex <==> c in multiset(ex);
      }
    }
    ReportedFromLists(av1Available, std, ex, mime);
    assert std != [] ==> std[0] in codecs && IsSupportedCodec(std[0]);
    if !forall c | c in codecs :: !IsSupportedCodec(c) {
      var c :| c in codecs && IsSupportedCodec(c);
      assert c !in ex;
    }
  }

  // ---------------------------------------------------------------------------
  // The session

  /** `Rtmp`: a session holding its native context until it is closed. */
  class Rtmp {
    /** `ptr`: the native context, null once closed. */
    var ptr: RtmpContext?
    const enableWrite: bool
    /** The requests made to the codec natives, in order. */
    ghost var codecRequests: seq<CodecRequest>

    /** The session holds a context that has not been freed. */
    predicate Open()
      reads this, ptr
    {
      ptr != null && !ptr.freed
    }

    /** A context held is never a freed one. */
    predicate Valid()
      reads this, ptr
    {
      ptr != null ==> !ptr.freed
    }

    constructor (enableWrite: bool, context: RtmpContext)
      requires !context.freed
      ensures ptr == context && this.enableWrite == enableWrite && codecRequests == []
      ensures Open()
    {
      ptr := context;
      this.enableWrite := enableWrite;
      codecRequests := [];
    }

    /** `Rtmp(enableWrite)`: UnsupportedOperationException when the context cannot be allocated. */
    static method New(enableWrite: bool, allocOk: bool, defaultTimeout: int32, defaultSocket: int32)
      returns (r: Result<Rtmp, RtmpError>)
      ensures r.Ok? <==> allocOk
      ensures r.Err? ==> r.error == UnsupportedOperation
      ensures r.Ok? ==> fresh(r.value) && fresh(r.value.ptr) && r.value.Open() && r.value.enableWrite == enableWrite
      ensures r.Ok? ==> r.value.ptr.timeout == defaultTimeout && r.value.ptr.calls == [] && r.value.codecRequests == []
    {
      if !allocOk {
        return Err(UnsupportedOperation);
      }
      var context := new RtmpContext.Alloc(defaultTimeout, defaultSocket);
      var session := new Rtmp(enableWrite, context);
      return Ok(session);
    }

    /** `isConnected`. */
    method IsConnected(res: int) returns (connected: bool)
      requires Open()
      modifies ptr
      ensures Open()
      ensures connected <==> res != FALSE
      ensures ptr.calls == old(ptr.calls) + [LibCall.IsConnected]
    {
      connected := ptr.NativeIsConnected(res);
    }

    /** The `timeout` getter: UnsupportedOperationException for a negative timeout. */
    method Timeout() returns (r: Result<int32, RtmpError>)
      requires Open()
      ensures r.Ok? <==> ptr.timeout >= 0
      ensures r.Ok? ==> r.value == ptr.timeout
      ensures r.Err? ==> r.error == UnsupportedOperation
    {
      var t := ptr.NativeGetTimeout();
      if t < 0 {
        return Err(UnsupportedOperation);
      }
      return Ok(t);
    }

    /**
     * The `timeout` setter: the context takes the value; `status` is the
     * integer the managed side reads from a native that returns nothing.
     */
    method SetTimeout(t: int32, status: int) returns (err: Option<RtmpError>)
      requires Open()
      modifies ptr
      ensures Open()
      ensures ptr.timeout == t && ptr.calls == old(ptr.calls)
      ensures err == None <==> status == 0
      ensures err.Some? ==> err.value == UnsupportedOperation
    {
      ptr.NativeSetTimeout(t);
      if status != 0 {
        return Some(UnsupportedOperation);
      }
      return None;
    }

    /**
     * The `supportedVideoCodecs` setter: IllegalArgumentException for an empty
     * list or a type that is no codec, before any native is called; then the
     * mask, then the FourCC list, each refusal raising
     * UnsupportedOperationException.
     */
    method SetSupportedVideoCodecs(codecs: seq<string>, av1Available: bool, setStatus: int, setExStatus: int)
      returns (err: Option<RtmpError>)
      requires Open()
      modifies this
      ensures ptr == old(ptr) && Open()
      ensures err == Some(IllegalArgument) <==> codecs == [] || SettingsOf(av1Available, codecs).Err?
      ensures err == Some(IllegalArgument) ==> codecRequests == old(codecRequests)
      ensures err != Some(IllegalArgument) ==>
        var sent := SettingsOf(av1Available, codecs).value;
        codecRequests == old(codecRequests) + [SetVideoCodec(sent.0)]
          + (if setStatus == 0 then [SetExVideoCodec(sent.1)] else [])
      ensures err == None <==> codecs != [] && SettingsOf(av1Available, codecs).Ok? && setStatus == 0 && setExStatus == 0
      ensures err.Some? && err != Some(IllegalArgument) ==> err.value == UnsupportedOperation
    {
      SettingsMeaning(av1Available, codecs);
      if codecs == [] {
        return Some(IllegalArgument);
      }
      var standard: seq<string> := [];
      var extended: seq<string> := [];
      for i := 0 to |codecs|
        invariant Partition(av1Available, codecs[..i]) == Ok((standard, extended))
      {
        assert codecs[..i + 1][..i] == codecs[..i];
        if IsSupportedCodec(codecs[i]) {
          standard := standard + [codecs[i]];
        } else if IsSupportedExCodec(av1Available, codecs[i]) {
          extended := extended + [codecs[i]];
        } else {
          PartitionErrorPersists(av1Available, codecs, i + 1);
          return Some(IllegalArgument);
        }
      }
      assert codecs[..|codecs|] == codecs;
      PartitionMeaning(av1Available, codecs);
      MaskMeaning(standard);
      FourCCsMeaning(av1Available, extended);
      var videoCodecs := FromMimeTypes(standard);
      var exVideoCodecs := ExFromMimeTypes(av1Available, extended);
      codecRequests := codecRequests + [SetVideoCodec(videoCodecs.value.value as int)];
      if setStatus != 0 {
        return Some(UnsupportedOperation);
      }
      codecRequests := codecRequests + [SetExVideoCodec(exVideoCodecs.value.value)];
      if setExStatus != 0 {
        return Some(UnsupportedOperation);
      }
      return None;
    }

    /**
     * `connect`: the URL, then (when writing) write mode, then the connection;
     * the first refusal raises IllegalArgumentException,
     * UnsupportedOperationException or ConnectException respectively and
     * stops there.
     */
    method Connect(url: string, setupRes: int, enableWriteStatus: int, connectRes: int)
      returns (err: Option<RtmpError>)
      requires Open()
      modifies ptr
      ensures Open()
      ensures err == None <==> setupRes != FALSE && (!enableWrite || enableWriteStatus == 0) && connectRes != FALSE
      ensures setupRes == FALSE ==> err == Some(IllegalArgument) && ptr.calls == old(ptr.calls) + [SetupURL(url)]
      ensures setupRes != FALSE && enableWrite && enableWriteStatus != 0 ==>
        err == Some(UnsupportedOperation) && ptr.calls == old(ptr.calls) + [SetupURL(url), EnableWrite]
      ensures setupRes != FALSE && (!enableWrite || enableWriteStatus == 0) ==>
        (err == None || err == Some(ConnectFailed))
        && ptr.calls == old(ptr.calls) + [SetupURL(url)] + (if enableWrite then [EnableWrite] else []) + [LibCall.Connect]
    {
      var status := ptr.NativeSetupURL(url, setupRes);
      if status != 0 {
        return Some(IllegalArgument);
      }
      if enableWrite {
        ptr.NativeEnableWrite();
        if enableWriteStatus != 0 {
          return Some(UnsupportedOperation);
        }
      }
      status := ptr.NativeConnect(connectRes);
      if status != 0 {
        return Some(ConnectFailed);
      }
      return None;
    }

    /** `connectStream`: ConnectException when librtmp reports FALSE. */
    method ConnectStream(res: int) returns (err: Option<RtmpError>)
      requires Open()
      modifies ptr
      ensures Open()
      ensures err == None <==> res != FALSE
      ensures err.Some? ==> err.value == ConnectFailed
      ensures ptr.calls == old(ptr.calls) + [LibCall.ConnectStream]
    {
      var status := ptr.NativeConnectStream(res);
      if status != 0 {
        return Some(ConnectFailed);
      }
      return None;
    }

    /**
     * `deleteStream`: `status` is the integer the managed side reads from a
     * native that returns nothing; non-zero raises UnsupportedOperationException.
     */
    method DeleteStream(status: int) returns (err: Option<RtmpError>)
      requires Open()
      modifies ptr
      ensures Open()
      ensures err == None <==> status == 0
      ensures err.Some? ==> err.value == UnsupportedOperation
      ensures ptr.calls == old(ptr.calls) + [LibCall.DeleteStream]
    {
      ptr.NativeDeleteStream();
      if status != 0 {
        return Some(UnsupportedOperation);
      }
      return None;
    }

    /**
     * `write(ByteBuffer)`: IllegalArgumentException for a heap buffer;
     * otherwise the bytes between position and limit go to librtmp and the
     * buffer is left as it was.
     */
    method WriteBuffer(buffer: AmfEncoding.ByteBuffer, res: int32) returns (r: Result<int, RtmpError>)
      requires Open()
      requires buffer.position <= buffer.limit
      modifies ptr
      ensures Open()
      ensures !buffer.isDirect ==> r == Err(IllegalArgument) && ptr.calls == old(ptr.calls)
      ensures buffer.isDirect ==>
        r == CountResult(res)
        && ptr.calls == old(ptr.calls) + [Write(buffer.position, buffer.limit - buffer.position)]
    {
      if !buffer.isDirect {
        return Err(IllegalArgument);
      }
      var count := ptr.NativeWrite(buffer.position, buffer.limit - buffer.position, res);
      r := CountResult(count);
    }

    /** `write(array, offset, size)`: the window goes to librtmp as given. */
    method WriteArray(data: array<byte>, offset: int32, size: int32, res: int32) returns (r: Result<int, RtmpError>)
      requires Open()
      modifies ptr
      ensures Open()
      ensures r == CountResult(res)
      ensures ptr.calls == old(ptr.calls) + [Write(offset, size)]
    {
      var count := ptr.NativeWrite(offset, size, res);
      r := CountResult(count);
    }

    /**
     * `read(array, offset, size)`: librtmp's count, classified like a write's,
     * whenever the window ends inside the array (a negative offset or size
     * included); otherwise SocketException without reaching librtmp and with
     * the array untouched. What librtmp stores into the array is not modelled.
     */
    method Read(data: array<byte>, offset: int32, size: int32, res: int32) returns (r: Result<int, RtmpError>)
      requires Open()
      modifies ptr, data
      ensures Open()
      ensures ReadGuardAsWritten(data.Length, offset, size) ==>
        r == CountResult(res) && ptr.calls == old(ptr.calls) + [LibCall.Read(offset, size)]
      ensures !ReadGuardAsWritten(data.Length, offset, size) ==>
        r == Err(SocketError) && ptr.calls == old(ptr.calls) && data[..] == old(data[..])
    {
      var count := ptr.NativeRead(data.Length, offset, size, res);
      r := CountResult(count);
    }

    /**
     * `writePacket`: SocketException exactly when librtmp refuses the send.
     * A record that cannot be built is sent as a null record, and a record
     * whose send fails stays allocated (`leaked`).
     */
    method WritePacket(mem: NativeMemory, p: ManagedPacket, refl: Reflection, mallocOk: bool,
                       garbage: NativePacket, res: int)
      returns (err: Option<RtmpError>, ghost leaked: PacketRecord?)
      requires Open()
      modifies ptr, mem
      ensures Open()
      ensures err == None <==> res != FALSE
      ensures err.Some? ==> err.value == SocketError
      ensures refl.Complete() && mallocOk ==> ptr.calls == old(ptr.calls) + [SendPacket(ToNative(p))]
      ensures !(refl.Complete() && mallocOk) ==> ptr.calls == old(ptr.calls) + [SendNullPacket]
      ensures leaked != null <==> refl.Complete() && mallocOk && res == FALSE
      ensures leaked == null ==> mem.records == old(mem.records)
      ensures leaked != null ==> fresh(leaked) && mem.records == old(mem.records) + {leaked}
    {
      var status, rec := ptr.NativeWritePacketAsWritten(mem, p, refl, mallocOk, garbage, res);
      leaked := if status != 0 then rec else null;
      if status != 0 {
        return Some(SocketError), leaked;
      }
      return None, leaked;
    }

    /** `readPacket`: SocketException when no packet comes back. */
    method ReadPacket(mem: NativeMemory, res: int, received: NativePacket, classFound: bool, constructorFound: bool, objectOk: bool)
      returns (r: Result<ManagedPacket, RtmpError>)
      requires Open()
      modifies ptr, mem
      ensures Open()
      ensures r.Ok? <==> res != FALSE && classFound && constructorFound && objectOk
      ensures r.Ok? ==> r.value == ToManaged(received)
      ensures r.Err? ==> r.error == SocketError
      ensures ptr.calls == old(ptr.calls) + [LibCall.ReadPacket]
      ensures mem.records == old(mem.records)
    {
      var p := ptr.NativeReadPacket(mem, res, received, classFound, constructorFound, objectOk);
      if p.None? {
        return Err(SocketError);
      }
      return Ok(p.value);
    }

    /**
     * `pause`: SocketException on any non-zero answer of `nativePause`, which
     * hands back librtmp's result unchanged, so the exception comes exactly
     * when librtmp reports success.
     */
    method Pause(res: int) returns (err: Option<RtmpError>)
      requires Open()
      modifies ptr
      ensures Open()
      ensures err == None <==> res == FALSE
      ensures err.Some? ==> err.value == SocketError
      ensures ptr.calls == old(ptr.calls) + [LibCall.Pause(true)]
    {
      var status := ptr.NativePauseAsWritten(res);
      if status != 0 {
        return Some(SocketError);
      }
      return None;
    }

    /** `resume`: like `pause`, SocketException exactly when librtmp reports success. */
    method Resume(res: int) returns (err: Option<RtmpError>)
      requires Open()
      modifies ptr
      ensures Open()
      ensures err == None <==> res == FALSE
      ensures err.Some? ==> err.value == SocketError
      ensures ptr.calls == old(ptr.calls) + [LibCall.Pause(false)]
    {
      var status := ptr.NativeResumeAsWritten(res);
      if status != 0 {
        return Some(SocketError);
      }
      return None;
    }

    /** `close`: closes and frees the context once; closing a closed session does nothing. */
    method Close()
      requires Valid()
      modifies this, ptr
      ensures ptr == null && Valid()
      ensures old(ptr) != null ==> old(ptr).freed && old(ptr).calls == old(ptr.calls) + [LibCall.Close, Free]
      ensures codecRequests == old(codecRequests)
    {
      if ptr != null {
        ptr.NativeClose();
        ptr := null;
      }
    }

    /** `serve`: librtmp's handshake runs on a context holding `fd`; SocketException when it fails. */
    method Serve(fd: int32, res: int) returns (err: Option<RtmpError>)
      requires Open()
      modifies ptr
      ensures Open()
      ensures err == None <==> res != FALSE
      ensures err.Some? ==> err.value == SocketError
      ensures ptr.calls == old(ptr.calls) + [LibCall.Serve(fd)]
    {
      var status := ptr.NativeServe(fd, res);
      if status != 0 {
        return Some(SocketError);
      }
      return None;
    }
  }
}

=== FILE: rtmp_scenarios.dfy ===
/**
 * The session's documented behaviour, driven through `Rtmp` as a caller
 * would drive it, with librtmp's answers given.
 */
module SessionScenarios {
  import opened Bytes
  import opened Wrappers
  import opened Codecs
  import opened Packets
  import opened Glue
  import opened Session
  import AmfEncoding

  /** A fresh session is not connected; a timeout set is read back; closing twice is harmless. */
  method LifecycleScenario() {
    var r := Rtmp.New(true, true, 30, -1);
    var rtmp := r.value;
    var connected := rtmp.IsConnected(FALSE);
    assert !connected;
    var err := rtmp.SetTimeout(1234, 0);
    var t := rtmp.Timeout();
    assert err == None && t == Ok(1234);
    ghost var context := rtmp.ptr;
    rtmp.Close();
    assert context.freed && rtmp.ptr == null;
    ghost var calls := context.calls;
    rtmp.Close();
    assert context.calls == calls;
  }

  /** A failed allocation raises UnsupportedOperationException. */
  method AllocationScenario() {
    var r := Rtmp.New(true, false, 30, -1);
    assert r == Err(UnsupportedOperation);
  }

  /** A negative timeout is accepted by the setter and refused by the getter. */
  method NegativeTimeoutScenario() {
    var r := Rtmp.New(false, true, 30, -1);
    var rtmp := r.value;
    var err := rtmp.SetTimeout(-5, 0);
    var t := rtmp.Timeout();
    assert err == None && t == Err(UnsupportedOperation);
  }

  /** A publisher's connect: URL, write mode, connection, then the stream. */
  method ConnectScenario() {
    var r := Rtmp.New(true, true, 30, -1);
    var rtmp := r.value;
    var url := "rtmp://127.0.0.1:1935/app/playpath";
    var err := rtmp.Connect(url, TRUE, 0, TRUE);
    assert err == None;
    var err2 := rtmp.ConnectStream(TRUE);
    assert err2 == None;
    assert rtmp.ptr.calls == [SetupURL(url), EnableWrite, LibCall.Connect, LibCall.ConnectStream];
  }

  /** A URL librtmp cannot parse stops `connect` before any connection attempt. */
  method BadUrlScenario() {
    var r := Rtmp.New(true, true, 30, -1);
    var rtmp := r.value;
    var err := rtmp.Connect("not a url", FALSE, 0, TRUE);
    assert err == Some(IllegalArgument);
    assert rtmp.ptr.calls == [SetupURL("not a url")];
  }

  /**
   * Reading into a 10-byte array when nothing arrives raises
   * SocketTimeoutException; a window ending past the array never reaches
   * librtmp, but one starting before it does.
   */
  method ReadScenario() {
    var r := Rtmp.New(true, true, 30, -1);
    var rtmp := r.value;
    var data := new byte[10];
    var n := rtmp.Read(data, 0, 10, 0);
    assert n == Err(SocketTimeout);
    var m := rtmp.Read(data, 5, 6, 5);
    assert m == Err(SocketError);
    var k := rtmp.Read(data, -1, 1, 1);
    assert k == Ok(1);
    assert rtmp.ptr.calls == [LibCall.Read(0, 10), LibCall.Read(-1, 1)];
  }

  /** Writing a direct buffer sends the bytes between its position and limit; a heap buffer is refused. */
  method WriteScenario() {
    var r := Rtmp.New(true, true, 30, -1);
    var rtmp := r.value;
    var direct := new AmfEncoding.ByteBuffer.Allocate(10, true);
    var n := rtmp.WriteBuffer(direct, 10);
    assert n == Ok(10);
    var heap := new AmfEncoding.ByteBuffer.Allocate(10, false);
    var m := rtmp.WriteBuffer(heap, 10);
    assert m == Err(IllegalArgument);
    var data := new byte[2];
    var k := rtmp.WriteArray(data, 0, 2, 0);
    assert k == Err(SocketTimeout);
    assert rtmp.ptr.calls == [Write(0, 10), Write(0, 2)];
  }

  /**
   * A command packet that goes out is freed, one whose send fails stays
   * allocated; a received packet comes back with its fields.
   */
  method PacketScenario() {
    var r := Rtmp.New(true, true, 30, -1);
    var rtmp := r.value;
    var mem := new NativeMemory();
    var p := ManagedPacket(3, 0, 0x14, 0, DirectBuffer(0x1000, 16));
    var garbage := NativePacket(0xFF, 0xFF, 0xFF, 7, 7, 7, 7, 7);
    var err, leaked := rtmp.WritePacket(mem, p, Reflection(true, {}), true, garbage, TRUE);
    assert err == None && mem.records == {};
    var err2, leaked2 := rtmp.WritePacket(mem, p, Reflection(true, {}), true, garbage, FALSE);
    assert err2 == Some(SocketError) && |mem.records| == 1;
    var received := NativePacket(0, 0x14, 0, 3, 100, 0, 16, 0x2000);
    var q := rtmp.ReadPacket(mem, TRUE, received, true, true, true);
    assert q == Ok(ManagedPacket(3, 0, 0x14, 100, DirectBuffer(0x2000, 16)));
    var q2 := rtmp.ReadPacket(mem, TRUE, received, true, true, false);
    assert q2 == Err(SocketError);
  }

  /** A pause and a resume that librtmp carries out raise SocketException; failed ones raise nothing. */
  method PauseScenario() {
    var r := Rtmp.New(true, true, 30, -1);
    var rtmp := r.value;
    var err := rtmp.Pause(TRUE);
    var err2 := rtmp.Resume(TRUE);
    assert err == Some(SocketError) && err2 == Some(SocketError);
    var err3 := rtmp.Pause(FALSE);
    assert err3 == None;
  }

  /** The codec setter refuses an empty list and an unknown type without calling a native. */
  method CodecRefusalScenario() {
    var r := Rtmp.New(true, true, 30, -1);
    var rtmp := r.value;
    var err := rtmp.SetSupportedVideoCodecs([], true, 0, 0);
    assert err == Some(IllegalArgument);
    assert Partition(true, ["video/mp4v-es"]) == Err("video/mp4v-es") by {
      assert "video/mp4v-es"[6] != MIME_H263[6] && "video/mp4v-es"[6] != MIME_AV1[6];
      assert "video/mp4v-es"[6] != MIME_HEVC[6];
    }
    var err2 := rtmp.SetSupportedVideoCodecs(["video/mp4v-es"], true, 0, 0);
    assert err2 == Some(IllegalArgument) && rtmp.codecRequests == [];
  }

  /** A list of one legacy and one enhanced type sets both lists, and the enhanced type is reported back. */
  method CodecSetterScenario() {
    var r := Rtmp.New(true, true, 30, -1);
    var rtmp := r.value;
    var codecs := [MIME_AVC, MIME_HEVC];
    assert IsSupportedCodec(MIME_AVC) by {
      assert CODECS[1].0 == MIME_AVC;
    }
    assert IsSupportedExCodec(true, MIME_HEVC) by {
      assert ExCodecs(true)[1].0 == MIME_HEVC;
    }
    PartitionMeaning(true, codecs);
    SettingsMeaning(true, codecs);
    var err3 := rtmp.SetSupportedVideoCodecs(codecs, true, 0, 0);
    assert err3 == None && |rtmp.codecRequests| == 2;
    CodecSettingsRoundTrip(true, codecs, MIME_HEVC);
    var sent := SettingsOf(true, codecs).value;
    assert ReportedCodecs(sent.0, sent.1, true).Ok?;
    assert MIME_HEVC in ReportedCodecs(sent.0, sent.1, true).value;
  }
}

=== FILE: video_codecs.dfy ===
/**
 * The codec capabilities exchanged in the RTMP `connect` command: the
 * classic `videoCodecs` bit mask (`VideoCodecs`) and the enhanced-RTMP
 * `fourCcList`, carried as a comma-separated string (`ExVideoCodecs`), both
 * translated to and from Android MIME types.
 */
module Codecs {
  import opened Wrappers

  // The Android `MediaFormat` MIME types the two tables use.
  const MIME_H263: string := "video/3gpp"
  const MIME_AVC: string := "video/avc"
  const MIME_VP9: string := "video/x-vnd.on2.vp9"
  const MIME_HEVC: string := "video/hevc"
  const MIME_AV1: string := "video/av01"

  // `videoCodecs` flags of the `connect` command.
  const SUPPORT_VID_SORENSON: bv32 := 0x0004
  const SUPPORT_VID_H264: bv32 := 0x0080

  // Enhanced-RTMP FourCC tags.
  const VP9_FOURCC_TAG: string := "vp9"
  const HEVC_FOURCC_TAG: string := "hvc1"
  const AV1_FOURCC_TAG: string := "av01"

  /** The first value `table` maps `key` to, as a Kotlin map lookup answers it. */
  function Lookup<V>(table: seq<(string, V)>, key: string): (r: Option<V>)
    ensures r.Some? <==> exists i | 0 <= i < |table| :: table[i].0 == key
    ensures r.Some? ==> exists i | 0 <= i < |table| :: table[i] == (key, r.value)
  {
    if table == [] then None
    else if table[0].0 == key then Some(table[0].1)
    else
      var r := Lookup(table[1..], key);
      assert forall i | 0 <= i < |table[1..]| :: table[1..][i] == table[i + 1];
      r
  }

  // ---------------------------------------------------------------------------
  // VideoCodecs: the `videoCodecs` mask

  /** `codecsMap`: MIME type to flag, in declaration order. */
  const CODECS: seq<(string, bv32)> := [(MIME_H263, SUPPORT_VID_SORENSON), (MIME_AVC, SUPPORT_VID_H264)]

  /** `isSupportedCodec`: the MIME type has a flag. */
  predicate IsSupportedCodec(mime: string) {
    Lookup(CODECS, mime).Some?
  }

  /** The MIME types of `table` whose flag is set in `value`, in table order. */
  function FlaggedIn(table: seq<(string, bv32)>, value: bv32): seq<string> {
    if table == [] then []
    else
      var last := table[|table| - 1];
      FlaggedIn(table[..|table| - 1], value) + (if value & last.1 != 0 then [last.0] else [])
  }

  /** A `videoCodecs` value and the MIME types it stands for. */
  datatype VideoCodecs = VideoCodecs(value: bv32) {
    /** `supportedCodecs`. */
    function SupportedCodecs(): seq<string> {
      FlaggedIn(CODECS, value)
    }

    /** `hasCodec`. */
    predicate HasCodec(mime: string) {
      mime in SupportedCodecs()
    }
  }

  lemma FlaggedInStep(table: seq<(string, bv32)>, i: nat, value: bv32)
    requires i < |table|
    ensures FlaggedIn(table[..i + 1], value)
         == FlaggedIn(table[..i], value) + (if value & table[i].1 != 0 then [table[i].0] else [])
  {
    assert table[..i + 1][..i] == table[..i];
  }

  /** The loop that fills `supportedCodecs` when a `VideoCodecs` is built. */
  method ComputeSupportedCodecs(value: bv32) returns (list: seq<string>)
    ensures list == VideoCodecs(value).SupportedCodecs()
  {
    list := [];
    for i := 0 to |CODECS|
      invariant list == FlaggedIn(CODECS[..i], value)
    {
      FlaggedInStep(CODECS, i, value);
      if value & CODECS[i].1 != 0 {
        list := list + [CODECS[i].0];
      }
    }
    assert CODECS[..|CODECS|] == CODECS;
  }

  /**
   * What `fromMimeTypes` computes: the OR of the flags of the MIME types, or
   * the first MIME type without a flag, which it rejects.
   */
  function MaskOf(mimes: seq<string>): Result<bv32, string> {
    if mimes == [] then Ok(0)
    else
      var prefix :- MaskOf(mimes[..|mimes| - 1]);
      var last := mimes[|mimes| - 1];
      match Lookup(CODECS, last)
      case None => Err(last)
      case Some(flag) => Ok(prefix | flag)
  }

  /** `VideoCodecs.fromMimeTypes`: the loop folding the flags, throwing IllegalArgumentException on an unknown type. */
  method FromMimeTypes(mimes: seq<string>) returns (r: Result<VideoCodecs, string>)
    ensures r.Ok? <==> MaskOf(mimes).Ok?
    ensures r.Ok? ==> r.value == VideoCodecs(MaskOf(mimes).value)
    ensures r.Err? ==> r.error == MaskOf(mimes).error
  {
    var value: bv32 := 0;
    for i := 0 to |mimes|
      invariant MaskOf(mimes[..i]) == Ok(value)
    {
      assert mimes[..i + 1][..i] == mimes[..i];
      var codec := Lookup(CODECS, mimes[i]);
      if codec.Some? {
        value := value | codec.value;
      } else {
        MaskErrorPersists(mimes, i + 1);
        return Err(mimes[i]);
      }
    }
    assert mimes[..|mimes|] == mimes;
    return Ok(VideoCodecs(value));
  }

  /** Once a prefix is rejected, the whole list is rejected with the same type. */
  lemma {:induction false} MaskErrorPersists(mimes: seq<string>, k: nat)
    requires k <= |mimes| && MaskOf(mimes[..k]).Err?
    ensures MaskOf(mimes) == MaskOf(mimes[..k])
    decreases |mimes| - k
  {
    if k < |mimes| {
      assert mimes[..k + 1][..k] == mimes[..k];
      MaskErrorPersists(mimes, k + 1);
    } else {
      assert mimes[..k] == mimes;
    }
  }

  /**
   * `fromMimeTypes` accepts exactly the lists of supported types; the mask
   * has a codec's flag exactly when the list names that codec.
   */
  lemma {:induction false} MaskMeaning(mimes: seq<string>)
    ensures MaskOf(mimes).Ok? <==> forall m | m in mimes :: IsSupportedCodec(m)
    ensures MaskOf(mimes).Ok? ==>
      (MaskOf(mimes).value & SUPPORT_VID_SORENSON != 0 <==> MIME_H263 in mimes)
      && (MaskOf(mimes).value & SUPPORT_VID_H264 != 0 <==> MIME_AVC in mimes)
      && MaskOf(mimes).value & !(SUPPORT_VID_SORENSON | SUPPORT_VID_H264) == 0
  {
    if mimes != [] {
      var prefix := mimes[..|mimes| - 1];
      var last := mimes[|mimes| - 1];
      assert mimes == prefix + [last];
      assert forall m :: m in mimes <==> m in prefix || m == last;
      MaskMeaning(prefix);
      if MaskOf(prefix).Err? {
        assert MaskOf(mimes).Err?;
        var m :| m in prefix && !IsSupportedCodec(m);
        assert m in mimes;
      } else if Lookup(CODECS, last).None? {
        assert MaskOf(mimes).Err? && !IsSupportedCodec(last);
      } else {
        var v := MaskOf(prefix).value;
        var f := Lookup(CODECS, last).value;
        assert f == SUPPORT_VID_SORENSON || f == SUPPORT_VID_H264;
        assert last == MIME_H263 <==> f == SUPPORT_VID_SORENSON;
        BitFacts(v, f);
      }
    }
  }

  /** The bit-vector facts `MaskMeaning` needs about adding one of the two flags. */
  lemma BitFacts(v: bv32, f: bv32)
    requires f == SUPPORT_VID_SORENSON || f == SUPPORT_VID_H264
    requires v & !(SUPPORT_VID_SORENSON | SUPPORT_VID_H264) == 0
    ensures (v | f) & !(SUPPORT_VID_SORENSON | SUPPORT_VID_H264) == 0
    ensures (v | f) & f != 0
    ensures f == SUPPORT_VID_SORENSON ==> ((v | f) & SUPPORT_VID_H264 != 0 <==> v & SUPPORT_VID_H264 != 0)
    ensures f == SUPPORT_VID_H264 ==> ((v | f) & SUPPORT_VID_SORENSON != 0 <==> v & SUPPORT_VID_SORENSON != 0)
  {
  }

  /** The MIME types a mask stands for: those of the table whose flag it has. */
  lemma SupportedCodecsMeaning(value: bv32, mime: string)
    ensures VideoCodecs(value).HasCodec(mime)
        <==> ((mime == MIME_H263 && value & SUPPORT_VID_SORENSON != 0)
          || (mime == MIME_AVC && value & SUPPORT_VID_H264 != 0))
  {
    assert CODECS[..1] == [(MIME_H263, SUPPORT_VID_SORENSON)];
    assert CODECS[..1][..0] == [] && CODECS[..|CODECS| - 1] == CODECS[..1];
    assert FlaggedIn(CODECS[..1], value) == if value & SUPPORT_VID_SORENSON != 0 then [MIME_H263] else [];
    assert VideoCodecs(value).SupportedCodecs()
        == (if value & SUPPORT_VID_SORENSON != 0 then [MIME_H263] else [])
         + (if value & SUPPORT_VID_H264 != 0 then [MIME_AVC] else []);
  }

  /**
   * Round trip: the codecs of the mask built from a list of supported types
   * are exactly the types of the list (order and repetitions aside).
   */
  lemma MaskRoundTrip(mimes: seq<string>, mime: string)
    requires forall m | m in mimes :: IsSupportedCodec(m)
    ensures MaskOf(mimes).Ok?
    ensures VideoCodecs(MaskOf(mimes).value).HasCodec(mime) <==> mime in mimes
  {
    MaskMeaning(mimes);
    SupportedCodecsMeaning(MaskOf(mimes).value, mime);
    if mime in mimes {
      assert IsSupportedCodec(mime);
      assert mime == MIME_H263 || mime == MIME_AVC;
    }
  }

  /** The rejected type is the first of the list without a flag. */
  lemma {:induction false} MaskErrorIsFirstUnsupported(mimes: seq<string>)
    requires MaskOf(mimes).Err?
    ensures exists i | 0 <= i < |mimes| ::
      (mimes[i] == MaskOf(mimes).error
       && !IsSupportedCodec(mimes[i]) && forall j | 0 <= j < i :: IsSupportedCodec(mimes[j]))
  {
    var prefix := mimes[..|mimes| - 1];
    if MaskOf(prefix).Err? {
      assert MaskOf(mimes) == MaskOf(prefix);
      MaskErrorIsFirstUnsupported(prefix);
      var i :| 0 <= i < |prefix| && prefix[i] == MaskOf(prefix).error
        && !IsSupportedCodec(prefix[i]) && forall j | 0 <= j < i :: IsSupportedCodec(prefix[j]);
      assert mimes[i] == prefix[i];
    } else {
      var i := |mimes| - 1;
      assert Lookup(CODECS, mimes[i]).None? && MaskOf(mimes) == Err(mimes[i]);
      PrefixSupported(prefix);
      assert forall j | 0 <= j < i :: mimes[j] == prefix[j];
    }
  }

  /** An accepted list names supported types only. */
  lemma PrefixSupported(prefix: seq<string>)
    requires MaskOf(prefix).Ok?
    ensures forall j | 0 <= j < |prefix| :: IsSupportedCodec(prefix[j])
  {
    MaskMeaning(prefix);
    assert forall j | 0 <= j < |prefix| :: prefix[j] in prefix;
  }

  // ---------------------------------------------------------------------------
  // ExVideoCodecs: the enhanced-RTMP FourCC list

  /** `codecsMap` of `ExVideoCodecs`: AV1 joins the table only from Android Q (API 29) on. */
  function ExCodecs(av1Available: bool): seq<(string, string)> {
    [(MIME_VP9, VP9_FOURCC_TAG), (MIME_HEVC, HEVC_FOURCC_TAG)]
    + (if av1Available then [(MIME_AV1, AV1_FOURCC_TAG)] else [])
  }

  /** `ExVideoCodecs.isSupportedCodec`. */
  predicate IsSupportedExCodec(av1Available: bool, mime: string) {
    Lookup(ExCodecs(av1Available), mime).Some?
  }

  /** Kotlin's `split(",")`: the pieces between commas; there is always at least one. */
  function Split(s: string): (r: seq<string>)
    ensures |r| >= 1
  {
    if s == [] then [""]
    else
      var tail := Split(s[1..]);
      if s[0] == ',' then [""] + tail else [[s[0]] + tail[0]] + tail[1..]
  }

  /** `joinToString(",")`. */
  function Join(pieces: seq<string>): string {
    if pieces == [] then ""
    else if |pieces| == 1 then pieces[0]
    else pieces[0] + "," + Join(pieces[1..])
  }

  /** A piece that holds no comma splits to itself, and followed by a comma it splits off first. */
  lemma {:induction false} SplitPiece(a: string, rest: string)
    requires ',' !in a
    ensures Split(a) == [a]
    ensures Split(a + "," + rest) == [a] + Split(rest)
  {
    if a != [] {
      assert (a + "," + rest)[1..] == a[1..] + "," + rest;
      SplitPiece(a[1..], rest);
      assert [a[0]] + a[1..] == a;
    } else {
      assert a + "," + rest == [','] + rest;
    }
  }

  /** Splitting what `Join` wrote gives the pieces back, when no piece holds a comma. */
  lemma {:induction false} SplitJoin(pieces: seq<string>)
    requires |pieces| >= 1
    requires forall i | 0 <= i < |pieces| :: ',' !in pieces[i]
    ensures Split(Join(pieces)) == pieces
  {
    SplitPiece(pieces[0], "");
    if |pieces| > 1 {
      SplitPiece(pieces[0], Join(pieces[1..]));
      SplitJoin(pieces[1..]);
    }
  }

  /** The entries of `table` whose FourCC is in `fourCCs`, in table order. */
  function ListedIn(table: seq<(string, string)>, fourCCs: seq<string>): seq<string> {
    if table == [] then []
    else
      var last := table[|table| - 1];
      ListedIn(table[..|table| - 1], fourCCs) + (if last.1 in fourCCs then [last.0] else [])
  }

  /** An `ExVideoCodecs` value: the FourCC list as sent, or null. */
  datatype ExVideoCodecs = ExVideoCodecs(value: Option<string>) {
    /** `fourCCList`. */
    function FourCCList(): seq<string> {
      if value.None? then [] else Split(value.value)
    }

    /** `supportedCodecs`: the MIME types of the table whose FourCC is listed. */
    function SupportedCodecs(av1Available: bool): seq<string> {
      ListedIn(ExCodecs(av1Available), FourCCList())
    }

    /** `hasCodec`. */
    predicate HasCodec(av1Available: bool, mime: string) {
      mime in SupportedCodecs(av1Available)
    }
  }

  lemma ListedInStep(table: seq<(string, string)>, i: nat, fourCCs: seq<string>)
    requires i < |table|
    ensures ListedIn(table[..i + 1], fourCCs)
         == ListedIn(table[..i], fourCCs) + (if table[i].1 in fourCCs then [table[i].0] else [])
  {
    assert table[..i + 1][..i] == table[..i];
  }

  /** The `supportedCodecs` getter: the loop over the table. */
  method ComputeExSupportedCodecs(codecs: ExVideoCodecs, av1Available: bool) returns (list: seq<string>)
    ensures list == codecs.SupportedCodecs(av1Available)
  {
    var table := ExCodecs(av1Available);
    var fourCCs := codecs.FourCCList();
    list := [];
    for i := 0 to |table|
      invariant list == ListedIn(table[..i], fourCCs)
    {
      ListedInStep(table, i, fourCCs);
      if table[i].1 in fourCCs {
        list := list + [table[i].0];
      }
    }
    assert table[..|table|] == table;
  }

  /** Every entry `ListedIn` answers comes from the table. */
  lemma {:induction false} ListedFromTable(table: seq<(string, string)>, fourCCs: seq<string>, mime: string)
    ensures mime in ListedIn(table, fourCCs)
        <==> exists i | 0 <= i < |table| :: table[i].0 == mime && table[i].1 in fourCCs
  {
    if table != [] {
      var pre := table[..|table| - 1];
      ListedFromTable(pre, fourCCs, mime);
      assert forall i | 0 <= i < |pre| :: pre[i] == table[i];
    }
  }

  /** The check in `ExVideoCodecs`' initialiser never throws: every listed type is in the table. */
  lemma InitNeverThrows(codecs: ExVideoCodecs, av1Available: bool, mime: string)
    requires mime in codecs.SupportedCodecs(av1Available)
    ensures IsSupportedExCodec(av1Available, mime)
  {
    ListedFromTable(ExCodecs(av1Available), codecs.FourCCList(), mime);
  }

  /** What `ExVideoCodecs.fromMimeTypes` collects: the FourCCs in list order, or the first unknown type. */
  function FourCCsOf(av1Available: bool, mimes: seq<string>): Result<seq<string>, string> {
    if mimes == [] then Ok([])
    else
      var prefix :- FourCCsOf(av1Available, mimes[..|mimes| - 1]);
      var last := mimes[|mimes| - 1];
      match Lookup(ExCodecs(av1Available), last)
      case None => Err(last)
      case Some(tag) => Ok(prefix + [tag])
  }

  /** The value `fromMimeTypes` builds from the collected FourCCs: null for an empty list. */
  function ExValueOf(mimes: seq<string>, fourCCs: seq<string>): Option<string> {
    if mimes == [] then None else Some(Join(fourCCs))
  }

  /** `ExVideoCodecs.fromMimeTypes`. */
  method ExFromMimeTypes(av1Available: bool, mimes: seq<string>) returns (r: Result<ExVideoCodecs, string>)
    ensures r.Ok? <==> FourCCsOf(av1Available, mimes).Ok?
    ensures r.Ok? ==> r.value == ExVideoCodecs(ExValueOf(mimes, FourCCsOf(av1Available, mimes).value))
    ensures r.Err? ==> r.error == FourCCsOf(av1Available, mimes).error
  {
    if mimes == [] {
      return Ok(ExVideoCodecs(None));
    }
    var table := ExCodecs(av1Available);
    var value: seq<string> := [];
    for i := 0 to |mimes|
      invariant FourCCsOf(av1Available, mimes[..i]) == Ok(value)
    {
      assert mimes[..i + 1][..i] == mimes[..i];
      var codec := Lookup(table, mimes[i]);
      if codec.Some? {
        value := value + [codec.value];
      } else {
        FourCCsErrorPersists(av1Available, mimes, i + 1);
        return Err(mimes[i]);
      }
    }
    assert mimes[..|mimes|] == mimes;
    return Ok(ExVideoCodecs(Some(Join(value))));
  }

  lemma {:induction false} FourCCsErrorPersists(av1Available: bool, mimes: seq<string>, k: nat)
    requires k <= |mimes| && FourCCsOf(av1Available, mimes[..k]).Err?
    ensures FourCCsOf(av1Available, mimes) == FourCCsOf(av1Available, mimes[..k])
    decreases |mimes| - k
  {
    if k < |mimes| {
      assert mimes[..k + 1][..k] == mimes[..k];
      FourCCsErrorPersists(av1Available, mimes, k + 1);
    } else {
      assert mimes[..k] == mimes;
    }
  }

  /**
   * `FourCCsOf` accepts exactly the lists of supported types, and answers
   * one table tag per type, each the tag of that type.
   */
  lemma {:induction false} FourCCsMeaning(av1Available: bool, mimes: seq<string>)
    ensures FourCCsOf(av1Available, mimes).Ok?
        <==> forall m | m in mimes :: IsSupportedExCodec(av1Available, m)
    ensures FourCCsOf(av1Available, mimes).Ok? ==>
      var tags := FourCCsOf(av1Available, mimes).value;
      |tags| == |mimes|
      && forall i | 0 <= i < |mimes| :: Lookup(ExCodecs(av1Available), mimes[i]) == Some(tags[i])
  {
    if mimes != [] {
      var prefix := mimes[..|mimes| - 1];
      assert mimes == prefix + [mimes[|mimes| - 1]];
      var last := mimes[|mimes| - 1];
      assert forall m :: m in mimes <==> m in prefix || m == last;
      FourCCsMeaning(av1Available, prefix);
      if FourCCsOf(av1Available, prefix).Err? {
        assert FourCCsOf(av1Available, mimes).Err?;
        var m :| m in prefix && !IsSupportedExCodec(av1Available, m);
        assert m in mimes;
      } else if Lookup(ExCodecs(av1Available), last).None? {
        assert FourCCsOf(av1Available, mimes).Err? && !IsSupportedExCodec(av1Available, last);
      }
    }
  }

  /** The table's tags are distinct and hold no comma. */
  lemma ExTableFacts(av1Available: bool)
    ensures forall i | 0 <= i < |ExCodecs(av1Available)| :: ',' !in ExCodecs(av1Available)[i].1
    ensures forall i, j | 0 <= i < |ExCodecs(av1Available)| && 0 <= j < |ExCodecs(av1Available)|
      :: ExCodecs(av1Available)[i].1 == ExCodecs(av1Available)[j].1 ==> i == j
  {
  }

  /**
   * Round trip: the codecs of the value built from a list of supported types
   * are exactly the types of the list.
   */
  lemma ExRoundTrip(av1Available: bool, mimes: seq<string>, mime: string)
    requires forall m | m in mimes :: IsSupportedExCodec(av1Available, m)
    ensures FourCCsOf(av1Available, mimes).Ok?
    ensures ExVideoCodecs(ExValueOf(mimes, FourCCsOf(av1Available, mimes).value)).HasCodec(av1Available, mime)
        <==> mime in mimes
  {
    FourCCsMeaning(av1Available, mimes);
    var tags := FourCCsOf(av1Available, mimes).value;
    FourCCListOfValue(av1Available, mimes);
    ListedFromTable(ExCodecs(av1Available), tags, mime);
    TaggedExactly(av1Available, mimes, mime);
  }

  /** The FourCC list read back from the value `fromMimeTypes` builds is the list it collected. */
  lemma FourCCListOfValue(av1Available: bool, mimes: seq<string>)
    requires FourCCsOf(av1Available, mimes).Ok?
    ensures ExVideoCodecs(ExValueOf(mimes, FourCCsOf(av1Available, mimes).value)).FourCCList()
         == FourCCsOf(av1Available, mimes).value
  {
    FourCCsMeaning(av1Available, mimes);
    var table := ExCodecs(av1Available);
    var tags := FourCCsOf(av1Available, mimes).value;
    ExTableFacts(av1Available);
    if mimes != [] {
      forall i | 0 <= i < |tags|
        ensures ',' !in tags[i]
      {
        var k :| 0 <= k < |table| && table[k] == (mimes[i], tags[i]);
      }
      SplitJoin(tags);
    }
  }

  /** A type has its tag among the collected FourCCs exactly when the list names it. */
  lemma TaggedExactly(av1Available: bool, mimes: seq<string>, mime: string)
    requires FourCCsOf(av1Available, mimes).Ok?
    ensures (exists k | 0 <= k < |ExCodecs(av1Available)| ::
               ExCodecs(av1Available)[k].0 == mime && ExCodecs(av1Available)[k].1 in FourCCsOf(av1Available, mimes).value)
        <==> mime in mimes
  {
    FourCCsMeaning(av1Available, mimes);
    var table := ExCodecs(av1Available);
    var tags := FourCCsOf(av1Available, mimes).value;
    ExTableFacts(av1Available);
    if mime in mimes {
      var i :| 0 <= i < |mimes| && mimes[i] == mime;
      var k :| 0 <= k < |table| && table[k] == (mime, tags[i]);
    }
    if exists k | 0 <= k < |table| :: table[k].0 == mime && table[k].1 in tags {
      var k :| 0 <= k < |table| && table[k].0 == mime && table[k].1 in tags;
      var i :| 0 <= i < |tags| && tags[i] == table[k].1;
      var k' :| 0 <= k' < |table| && table[k'] == (mimes[i], tags[i]);
      assert k == k';
    }
  }

  // ---------------------------------------------------------------------------
  // The documented behaviour on concrete lists

  method MaskScenarios() {
    assert MaskOf([MIME_H263][..0]) == Ok(0);
    var h263 := FromMimeTypes([MIME_H263]);
    assert h263 == Ok(VideoCodecs(0x4));
    SupportedCodecsMeaning(0x4, MIME_H263);
    assert h263.value.HasCodec(MIME_H263);

    assert MIME_AV1[7] != MIME_H263[7] && MIME_AV1[8] != MIME_AVC[8];
    assert !IsSupportedCodec(MIME_AV1);
    var mixed := FromMimeTypes([MIME_H263, MIME_AV1]);
    assert [MIME_H263, MIME_AV1][..1] == [MIME_H263];
    assert mixed == Err(MIME_AV1);

    var none := FromMimeTypes([]);
    assert none == Ok(VideoCodecs(0));
    var list := ComputeSupportedCodecs(0);
    if list != [] {
      SupportedCodecsMeaning(0, list[0]);
    }
    assert list == [];
  }

  method ExScenarios(av1Available: bool) {
    var hevc := ExFromMimeTypes(av1Available, [MIME_HEVC]);
    assert MIME_VP9[6] != MIME_HEVC[6];
    assert IsSupportedExCodec(av1Available, MIME_HEVC);
    ExRoundTrip(av1Available, [MIME_HEVC], MIME_HEVC);
    assert hevc.value.HasCodec(av1Available, MIME_HEVC);

    assert MIME_H263[6] != MIME_VP9[6] && MIME_H263[7] != MIME_HEVC[7] && MIME_H263[7] != MIME_AV1[7];
    assert !IsSupportedExCodec(av1Available, MIME_H263);
    var mixed := ExFromMimeTypes(av1Available, [MIME_H263, MIME_AV1]);
    assert [MIME_H263, MIME_AV1][..1] == [MIME_H263] && [MIME_H263][..0] == [];
    FourCCsErrorPersists(av1Available, [MIME_H263, MIME_AV1], 1);
    assert mixed == Err(MIME_H263);

    var none := ExFromMimeTypes(av1Available, []);
    assert none == Ok(ExVideoCodecs(None));
    var list := ComputeExSupportedCodecs(none.value, av1Available);
    if list != [] {
      ListedFromTable(ExCodecs(av1Available), [], list[0]);
      assert false;
    }
  }
}

=== FILE: wrappers.dfy ===
/** Option and Result, for the nulls and exceptions of the modelled code. */
module Wrappers {
  datatype Option<+T> = None | Some(value: T)

  datatype Result<+T, +E> = Ok(value: T) | Err(error: E) {
    predicate IsFailure() {
      Err?
    }

    function PropagateFailure<U>(): Result<U, E>
      requires Err?
    {
      Err(error)
    }

    function Extract(): T
      requires Ok?
    {
      value
    }
  }
}
